=== FILE: README.md ===
# Workday form autofill, modelled in Dafny

A browser extension fills the sign-in and account-creation forms of Workday recruiting sites with an
email address and a password the user saved earlier. This project models the extension's content
script (`contents/workday-form-autofill.ts`) and its credential store (`storage.ts`), and proves
properties of that model:

- the host check that decides whether the script runs at all;
- `findInputField`, the tiered search for the email input: automation ids, then conventional
  attributes, then label text;
- `findPasswordFields`, which gathers password inputs into a list across several tiers, checking
  for duplicates;
- `fillField` and the fill controller `attemptFormFill`: which inputs get which value, where focus
  ends up, and which notice (success, warning, error or none) appears;
- the two singleton UI elements, the floating button and the notice, each kept unique by a fixed id;
- the stored credential record, its default, and the "has credentials" test.

The page is an abstract DOM. It is a sequence of elements in document order, and an element is
identified by its position. Each element has:

- a tag;
- the optional attributes the script reads: `data-automation-id`, `type`, `name`, `id`,
  `placeholder`, `aria-label` and `for`;
- its text;
- its following element siblings and its descendants, as positions.

Each CSS selector the script passes to `document.querySelector` or `document.querySelectorAll` is
a constructor of `Dom.Selector`, and `Dom.Matches` says which elements it matches. The one
selector the script applies to an element, `querySelector('input')` (lines 198, 299 and 301), has
no constructor: it is `Dom.NestedInput`, the first input among the element's descendants. `*=` is
the substring match of Selectors Level 4, section 6.2. An empty value there matches nothing. The
`i` flag (Selectors Level 4, section 6.3) compares after ASCII lower-casing.
`querySelector` is the first match in document order, `querySelectorAll` every match in document
order, and `getElementById` the first element carrying the id.

Modules:

| file | module | what it holds |
|---|---|---|
| `options.dfy` | `Options` | the `Option` type |
| `text.dfy` | `Text` | `includes` and ASCII `toLowerCase` on strings |
| `host.dfy` | `Host` | `isWorkdayPage` |
| `dom.dfy` | `Dom` | the abstract page, the selectors and the DOM queries |
| `field_locator.dfy` | `FieldLocator` | `findInputField`, as pure functions |
| `password_locator.dfy` | `PasswordLocator` | `findPasswordFields`, as methods that push into a list, proved equal to a stage-by-stage definition |
| `storage.dfy` | `Storage` | the credential record, the default, and the key-value store as a class |
| `fill_plan.dfy` | `FillPlan` | the decisions of one `attemptFormFill` run, as functions of the page, the focus and the credentials |
| `content_script.dfy` | `ContentScript` | the `Document` class: values, focus, the script's own nodes, and the methods that change them |

Two facts about the order and number of password fields shape the rest of the model:

- When labels are the only hint, the verify-label tier (lines 284-309) runs before the
  password-label tier (lines 313-338). So on a page with a "Password" label and a "Confirm
  Password" label, the confirmation input comes first (`PasswordLocator.VerifyLabelTierFirst`).
- Only the label tiers stop at two fields: each runs only while fewer than two are collected
  (lines 276 and 312) and adds at most one (`PasswordLocator.LabelStage`). The automation-id,
  `type="password"` and name/id/placeholder tiers have no cap. So every `type="password"` input is
  collected when no automation id matched (`PasswordLocator.TypeTierUncapped`). Only the first two
  fields receive the password (`FillPlan.LaterFieldsUntouched`).

## Model

All `.ts` paths below are relative to the repository root.

| member | source | states |
|---|---|---|
| Host.IsWorkdayPage | contents/workday-form-autofill.ts:37-40 | true exactly when the hostname contains "workday.com" or "myworkdayjobs.com"; the third allow-list entry adds nothing |
| Host.MyWorkdayIsWorkday | contents/workday-form-autofill.ts:38 | a hostname containing "myworkday.com" contains "workday.com" |
| Text.Lower | contents/workday-form-autofill.ts:179 | `toLowerCase` keeps the length and maps each ASCII capital to its lower-case letter, every other character to itself |
| Text.Contains | contents/workday-form-autofill.ts:39 | `includes`: the empty string occurs in every string; a string occurs only in one at least as long; in one of the same length only when equal |
| Dom.QuerySelectorAll | contents/workday-form-autofill.ts:222 | the result holds exactly the matching elements, each once, in document order |
| Dom.QuerySelector | contents/workday-form-autofill.ts:152 | the result matches and no earlier element does; none only when nothing matches |
| Dom.GetElementById | contents/workday-form-autofill.ts:183 | the result carries the id and no earlier element does; none only when no element carries it |
| Dom.NestedInput | contents/workday-form-autofill.ts:198 | `el.querySelector('input')`: the first input among the element's descendants; none only when no descendant is an input |
| Dom.Matches | contents/workday-form-autofill.ts:150-166 | a selector that begins with `input` matches only inputs, and `label` only labels; a `*=` selector with an empty value matches nothing |
| FieldLocator.FirstHit | contents/workday-form-autofill.ts:168-174 | none exactly when every selector misses; otherwise the first element found by the first selector, in list order, that finds one; that element is an input |
| FieldLocator.FirstHitConcat | contents/workday-form-autofill.ts:150-174 | trying one selector list after another gives the same result as trying their concatenation |
| FieldLocator.AutomationCover | contents/workday-form-autofill.ts:150-151 | the automation tier tries exactly one `data-automation-id*=` selector per keyword, each for inputs only |
| FieldLocator.ConventionalCover | contents/workday-form-autofill.ts:160-166 | the conventional tier tries exactly one selector per attribute and keyword, each for inputs only |
| FieldLocator.ConventionalSelectors | contents/workday-form-autofill.ts:160-166 | five selectors per keyword: `type`, `name`, `id`, `placeholder` and `aria-label`; their order is given by `ConventionalOrder` |
| FieldLocator.ConventionalOrder | contents/workday-form-autofill.ts:160-174 | the conventional tier is the `type` selectors over all keywords, else `name`, else `id`, else `placeholder`, else `aria-label` |
| FieldLocator.MentionsKeyword | contents/workday-form-autofill.ts:179 | a label text matches only if some keyword is no longer than it; an empty keyword matches every label |
| FieldLocator.ForTarget | contents/workday-form-autofill.ts:181-183 | a label with a non-empty `for` attribute yields exactly `getElementById` of it; with no `for` attribute, or an empty one, it yields nothing |
| FieldLocator.SiblingInput | contents/workday-form-autofill.ts:193-202 | a sibling that is an input yields itself; any other sibling yields its first nested input; none exactly when it is neither |
| FieldLocator.AdjacentInput | contents/workday-form-autofill.ts:191-205 | the walk returns the input of the first following sibling that yields one; none exactly when no sibling yields one |
| FieldLocator.LabelResolution | contents/workday-form-autofill.ts:181-205 | a label resolves to its `for` target when that is an input, and otherwise to the sibling walk |
| FieldLocator.LabelTier | contents/workday-form-autofill.ts:177-207 | the input of the first label, in document order, that mentions a keyword and resolves; none exactly when no label does |
| FieldLocator.Labels | contents/workday-form-autofill.ts:177 | exactly the page's labels, each once, in document order |
| FieldLocator.FindInputField | contents/workday-form-autofill.ts:147-214 | the result is always an input; it is null exactly when the automation, conventional and label tiers all miss |
| FieldLocator.AutomationTierMiss | contents/workday-form-autofill.ts:150-157 | the automation tier finds nothing exactly when no keyword's automation selector matches; what it finds is an input |
| FieldLocator.ConventionalTierMiss | contents/workday-form-autofill.ts:159-174 | the conventional tier finds nothing exactly when no attribute selector matches for any keyword; what it finds is an input |
| FieldLocator.LabelTierMiss | contents/workday-form-autofill.ts:176-207 | the label tier finds nothing exactly when no label mentions a keyword and resolves to an input |
| FieldLocator.TierOrder | contents/workday-form-autofill.ts:150-174 | the result is the automation tier, else `type`, else `name`, else `id`, else `placeholder`, else `aria-label` (each over all keywords), else the labels |
| FieldLocator.AutomationTierWins | contents/workday-form-autofill.ts:150-157 | if any keyword's automation selector matches, the result is the first match of the first such keyword, ahead of every conventional and label match |
| FieldLocator.AutomationFirstHit | contents/workday-form-autofill.ts:150-157 | a matching keyword at position k means the automation tier stops at a keyword no later than k |
| PasswordLocator.InputsOf | contents/workday-form-autofill.ts:223-228 | the `instanceof` filter keeps only inputs, all drawn from the candidates |
| PasswordLocator.InputsOfKeepsInputs | contents/workday-form-autofill.ts:223-228 | every candidate that is an input is kept by the `instanceof` filter |
| PasswordLocator.InputsOfConcat | contents/workday-form-autofill.ts:254-259 | filtering a concatenation filters each part, so the kept inputs stay in candidate order |
| PasswordLocator.InputsOfIncreasing | contents/workday-form-autofill.ts:253-259 | filtering a list in document order keeps document order |
| PasswordLocator.InputsOfAllInputs | contents/workday-form-autofill.ts:253-259 | filtering a list of inputs keeps all of it |
| PasswordLocator.TypePasswordInputs | contents/workday-form-autofill.ts:253-259 | the `type="password"` candidates are all inputs, and they are exactly the elements that match the selector |
| PasswordLocator.PushInputs | contents/workday-form-autofill.ts:223-228 | the push loop without a duplicate check appends every candidate that is an input, in order |
| PasswordLocator.AppendNewInputs | contents/workday-form-autofill.ts:243-248 | the push loop with `!fields.includes` extends the list; every candidate input ends up in it; nothing else is added; no repeats are introduced |
| PasswordLocator.PushNewInputs | contents/workday-form-autofill.ts:243-248 | the loop computes `AppendNewInputs` |
| PasswordLocator.NearbyCandidate | contents/workday-form-autofill.ts:299-301 | with a next sibling, the candidate is that sibling's first nested input or else the sibling itself; the label's own input is consulted only when there is no next sibling |
| PasswordLocator.LabelCandidate | contents/workday-form-autofill.ts:285-307 | a label whose text mentions no phrase contributes nothing; otherwise it contributes its `for` target when that is an input not yet collected, else the nearby candidate when that is an input not yet collected, else nothing |
| PasswordLocator.MentionsPhrase | contents/workday-form-autofill.ts:285-286 | a label text matches only if some phrase is no longer than it; an empty phrase matches every label |
| PasswordLocator.TryLabel | contents/workday-form-autofill.ts:285-307 | one iteration of a label loop computes that label's contribution, `LabelCandidate` |
| PasswordLocator.AddFromLabels | contents/workday-form-autofill.ts:284-309 | a label tier adds at most one field; it adds one exactly when some label contributes; it keeps the list distinct and made of inputs |
| PasswordLocator.PushFromLabels | contents/workday-form-autofill.ts:284-309 | the `for ... break` loop computes `AddFromLabels` |
| PasswordLocator.AutomationStage | contents/workday-form-autofill.ts:222-228 | the first tier collects exactly the inputs whose automation id contains "password", each once, in document order |
| PasswordLocator.VerifyAutomationField | contents/workday-form-autofill.ts:231-232 | the result is an input whose automation id is exactly "verifyPassword" or "confirmPassword"; none exactly when no input has either |
| PasswordLocator.VerifyPasswordPreferred | contents/workday-form-autofill.ts:231-232 | the first `verifyPassword` input is taken whenever one exists; only without one is the first `confirmPassword` input taken |
| PasswordLocator.VerifyStage | contents/workday-form-autofill.ts:234-237 | the list grows by one exactly when a verification field exists and is not yet collected, and then that field is appended |
| PasswordLocator.SecondTypeStage | contents/workday-form-autofill.ts:240-249 | unchanged unless exactly one field was collected; only ever extended, without repeats |
| PasswordLocator.FirstTypeStage | contents/workday-form-autofill.ts:252-260 | unchanged unless nothing was collected; then exactly the `type="password"` inputs, in document order; only ever extended, without repeats |
| PasswordLocator.NamedStage | contents/workday-form-autofill.ts:263-273 | unchanged unless nothing was collected; only ever extended, without repeats |
| PasswordLocator.LabelStage | contents/workday-form-autofill.ts:276-340 | unchanged once two fields are collected; otherwise extended by at most two without repeats, and never beyond two fields in all |
| PasswordLocator.PasswordFields | contents/workday-form-autofill.ts:217-347 | the collected fields are inputs, and no element appears twice |
| PasswordLocator.FindPasswordFields | contents/workday-form-autofill.ts:217-347 | the method, tier by tier, returns `PasswordFields` |
| PasswordLocator.CollectAutomation | contents/workday-form-autofill.ts:220-228 | the first tier computes `AutomationStage` |
| PasswordLocator.CollectVerify | contents/workday-form-autofill.ts:231-237 | the verification step computes `VerifyStage` |
| PasswordLocator.CollectSecondType | contents/workday-form-autofill.ts:240-249 | the step computes `SecondTypeStage` |
| PasswordLocator.CollectFirstType | contents/workday-form-autofill.ts:252-260 | the step computes `FirstTypeStage` |
| PasswordLocator.CollectNamed | contents/workday-form-autofill.ts:263-273 | the step computes `NamedStage` |
| PasswordLocator.CollectLabels | contents/workday-form-autofill.ts:276-340 | the two label loops compute `LabelStage` |
| PasswordLocator.LabelPickAt | contents/workday-form-autofill.ts:294 | a label tier appends the contribution of the first label that contributes |
| PasswordLocator.EarlierTiersKeepPositions | contents/workday-form-autofill.ts:222-340 | each tier's list is a prefix of the next tier's and of the final result |
| PasswordLocator.TypeTierUncapped | contents/workday-form-autofill.ts:252-260 | with no automation-id hit, every `type="password"` input is returned, in document order, with no cap at two |
| PasswordLocator.SinglePasswordInput | contents/workday-form-autofill.ts:217-347 | a page whose only password hint is one `type="password"` input yields exactly that input, whatever other labels it has, as long as none mentions a verification or password phrase |
| PasswordLocator.NoAutomationHints | contents/workday-form-autofill.ts:222-232 | without automation-id hints both automation tiers find nothing |
| PasswordLocator.OnlyTypePassword | contents/workday-form-autofill.ts:252-260 | one `type="password"` input is collected alone by the first type tier |
| PasswordLocator.NoLabelsKeep | contents/workday-form-autofill.ts:276-340 | without labels the label tiers add nothing |
| PasswordLocator.QuietLabelsKeep | contents/workday-form-autofill.ts:276-340 | labels that mention no verification or password phrase add nothing |
| PasswordLocator.VerifyLabelTierFirst | contents/workday-form-autofill.ts:276-338 | when only labels identify fields, the verify-label tier contributes the first field |
| PasswordLocator.NonInputSiblingShadowsLabel | contents/workday-form-autofill.ts:299-303 | a label whose next sibling is neither an input nor contains one contributes nothing by proximity, even when it holds an input |
| PasswordLocator.MixedCaseIdsMissSubstringTier | contents/workday-form-autofill.ts:222 | "verifyPassword" and "confirmPassword" do not contain "password" |
| Storage.GetCredentials | storage.ts:26-29 | the stored record when the "credentials" key holds one; the default when the key is absent or holds nothing |
| Storage.HasCredentials | storage.ts:32-35 | true exactly when both the email and the password of the retrieved record are non-empty |
| Storage.EmptyStoreHasNoCredentials | storage.ts:11-15 | an empty store yields the default record (empty email and password, auto-fill on), so it holds no credentials |
| Storage.CredentialStore.constructor | storage.ts:18 | the store starts with the given entries |
| Storage.CredentialStore.SaveCredentials | storage.ts:21-23 | the "credentials" key now holds the record, reading it back returns it, and every other key is unchanged |
| Storage.CredentialStore.SaveTwiceThenLoad | storage.ts:21-29 | after two saves, reading returns the second record |
| Storage.SaveThenGet | storage.ts:21-29 | a read after a save returns the saved record, and a second save replaces the first |
| FillPlan.IncompleteIffNoCredentials | contents/workday-form-autofill.ts:92 | the fill controller gives up exactly when `hasCredentials` would say no |
| FillPlan.Incomplete | contents/workday-form-autofill.ts:92 | the default record is incomplete; a complete record has a non-empty email and a non-empty password |
| FillPlan.ButtonFocused | contents/workday-form-autofill.ts:131 | the button itself counts as focused and nothing focused does not; when no page element carries the button's id, only the button counts |
| FillPlan.Locate | contents/workday-form-autofill.ts:106-114 | the located email target is an input, the password fields are distinct inputs, and no email target exactly when every tier misses |
| FillPlan.EmailWrites | contents/workday-form-autofill.ts:106-111 | one fill exactly when an email input was found |
| FillPlan.PasswordWrites | contents/workday-form-autofill.ts:114-126 | at most two fills, only to the first two password fields; some fill exactly when there is a field |
| FillPlan.FillWrites | contents/workday-form-autofill.ts:92-126 | no fill with incomplete credentials; otherwise at most three, some exactly when something was found, each to the email input or one of the first two password fields |
| FillPlan.WritesTargetInputs | contents/workday-form-autofill.ts:105-126 | every fill of a run targets an input of the page |
| FillPlan.LastWriteTo | contents/workday-form-autofill.ts:352 | the value of the last fill that targets an element; none exactly when no fill targets it |
| FillPlan.ApplyWritesPointwise | contents/workday-form-autofill.ts:352 | after the fills each element holds the value of the last fill that targets it, or keeps its old value |
| FillPlan.FocusAfter | contents/workday-form-autofill.ts:357 | after any fill, focus is on the last element filled, and so never on the button; without one it is unchanged |
| FillPlan.ApplyWrites | contents/workday-form-autofill.ts:352 | the fills keep the number of elements; what each element then holds is `ApplyWritesPointwise` |
| FillPlan.NoticeAsWritten | contents/workday-form-autofill.ts:92-136 | error exactly when credentials are incomplete and the button is focused; warning exactly when complete, nothing found and the button focused; success only when something was filled, and always when also auto-fill is on |
| FillPlan.NoticeIntended | contents/workday-form-autofill.ts:128-136 | the full decision table, with "manual" read before any fill: error, success, warning and none each as exactly characterised |
| FillPlan.AsWrittenLosesManualSuccess | contents/workday-form-autofill.ts:130-131 | the two readings differ exactly for a click on the button, with auto-fill off and complete credentials, that fills something; after any fill, success appears exactly when auto-fill is on |
| FillPlan.SinglePasswordPageFound | contents/workday-form-autofill.ts:114-126 | any page with a `type="password"` input has something to fill, whatever its other hints |
| FillPlan.OnePasswordPageQualifies | contents/workday-form-autofill.ts:252-260 | the one-input page is such a page, and no element of it carries the button's id |
| FillPlan.ManualClickShowsNoNotice | contents/workday-form-autofill.ts:130-136 | a click that fills something with auto-fill off shows no notice as written; the intended reading shows success |
| FillPlan.OnePasswordPageManualClick | contents/workday-form-autofill.ts:130-136 | on `OnePasswordPage`, a click on the button with complete credentials and auto-fill off finds a field to fill, yet as written shows no notice, while the intended reading shows success |
| FillPlan.FillAssignment | contents/workday-form-autofill.ts:92-126 | incomplete credentials change nothing; otherwise the first two password fields hold the password, the email input the email unless it is also a password field, and every other element keeps its value |
| FillPlan.CompleteAssignment | contents/workday-form-autofill.ts:105-126 | with complete credentials, the first two password fields hold the password, the email input the email unless it is also one of them, and every other element keeps its value |
| FillPlan.LaterFieldsUntouched | contents/workday-form-autofill.ts:114-126 | password fields after the second, and every element that is not an input, keep their values |
| ContentScript.RemoveFirstNotice | contents/workday-form-autofill.ts:370-373 | removing the first notice leaves one notice fewer, takes out the first notice and nothing else, and keeps the button count |
| ContentScript.NoticeAppended | contents/workday-form-autofill.ts:403 | appending a notice adds one notice and leaves the button alone |
| ContentScript.PageNoticeFrom | contents/workday-form-autofill.ts:370 | the first page element still present that carries the notice's id; none exactly when there is none |
| ContentScript.NothingRemovedWithoutPageNotice | contents/workday-form-autofill.ts:370-373 | with no page element carrying the notice's id, no page element was removed |
| ContentScript.RemovedAfterShow | contents/workday-form-autofill.ts:370-373 | `showMessage` removes at most one page element, and one exactly when a page element carries the notice's id |
| ContentScript.BodyAfterShow | contents/workday-form-autofill.ts:367-403 | after `showMessage` the new notice is the last node, after the old nodes minus (at most) the first old notice |
| ContentScript.RemovePageNotice | contents/workday-form-autofill.ts:370-373 | removing a page element with the notice's id keeps the notice invariant and leaves room for one notice |
| ContentScript.RemoveOwnNotice | contents/workday-form-autofill.ts:370-373 | removing the script's own first notice keeps both invariants and leaves room for one notice |
| ContentScript.AddNotice | contents/workday-form-autofill.ts:376-403 | appending a notice where there is room keeps both invariants |
| ContentScript.Document.constructor | contents/workday-form-autofill.ts:7 | a fresh document has no button (`floatingButton` starts null), no script node, no removal and no events |
| ContentScript.Document.FillField | contents/workday-form-autofill.ts:350-364 | only the input's value changes, it gets focus, and its `input`, `change` and deferred blur are recorded |
| ContentScript.Document.CreateFloatingButton | contents/workday-form-autofill.ts:43-82 | a no-op when the button exists (the flag or an element with its id); otherwise the button is appended; afterwards there is exactly one button of the script's, or none beside a page element with that id |
| ContentScript.Document.ShowMessage | contents/workday-form-autofill.ts:367-413 | the first element with the notice's id is removed and a new notice appended; with no page element of that id, exactly one notice remains |
| ContentScript.Document.RemoveExistingNotice | contents/workday-form-autofill.ts:370-373 | the first page element with the notice's id is removed, or else the script's first notice |
| ContentScript.Document.AppendNotice | contents/workday-form-autofill.ts:376-403 | the notice is appended and nothing else changes |
| ContentScript.Document.FillCredentials | contents/workday-form-autofill.ts:105-126 | values, focus and events are those of the planned fills, and the result says whether anything was filled |
| ContentScript.Document.FillEmail | contents/workday-form-autofill.ts:105-111 | the email input, if found, is filled with the email |
| ContentScript.Document.FillPasswords | contents/workday-form-autofill.ts:113-126 | the first password field, and the second if present, are filled with the password |
| ContentScript.Document.AttemptFormFill | contents/workday-form-autofill.ts:85-144 | the new values, focus and events follow the fill plan, the notice is the as-written decision, the button is untouched, and with no page element of the notice's id exactly one notice remains after one is shown |
| ContentScript.Document.AttemptFormFillCorrected | contents/workday-form-autofill.ts:128-136 | the same, with the intended notice decision |
| ContentScript.Document.ClickFloatingButton | contents/workday-form-autofill.ts:71-74 | the click runs the fill with the button focused. Values, focus and events follow the fill plan. The notice is the as-written decision, and the body and removals follow `showMessage` exactly when a notice is shown. The button is untouched. Without credentials it shows an error and changes no value, and with no page element of the notice's id exactly one notice remains. With credentials and nothing to fill it shows a warning |
| ContentScript.Document.Initialize | contents/workday-form-autofill.ts:13-34 | on a Workday host a fill is scheduled, and the button is appended unless it already exists (the flag or an element with its id), in which case nothing else changes; elsewhere nothing changes |

## Left out

- Timers and page lifecycle are not modelled. This covers the 500 ms delay and the `load` listener
  before the first fill (`Initialize` only reports that a fill is scheduled), the 100 ms deferred
  blur (recorded as a `BlurScheduled` event) and the fade and removal of a notice after three seconds.
- The synthetic `input` and `change` events are recorded in an event log. What the page's own
  listeners do with them is not modelled.
- The `try`/`catch` paths are not modelled. DOM calls are taken not to throw, so the error notice
  of lines 137-143 never appears in the model.
- Styles, colours, the button's caption and the notice texts are presentation only. A notice is
  modelled by its kind.
- `popup.tsx`, the options page that edits the stored record, is not part of this model.
- The asynchronous storage library and its serialisation are a map from key to an optional record.
  Overlapping runs of `attemptFormFill` and their races are not modelled.
- `type="password"` is compared exactly. HTML's case-insensitive matching of `type` values is not
  modelled.
- `toLowerCase` is ASCII lower-casing. Unicode case mapping is not modelled.
- `focus()` always succeeds in the model. An input that refuses focus, such as a hidden or
  disabled one, is not modelled.
- A click on the floating button gives it focus (`Document.ClickFloatingButton`). Browsers that do
  not focus buttons on click are not modelled.
- The locators search the host page's elements as loaded. A page element that `showMessage`
  removed is still seen by later searches. The script's own nodes (the button and the notices) are
  not part of the searched page. They are never inputs or labels, so the selector and id searches
  give the same results without them.
- PasswordLocator.NearbyCandidate: the script's appended nodes are not modelled as the body's
  trailing element siblings. In the browser, a label that was the body's last element child has
  the floating button as its `nextElementSibling` once the button is appended (line 77). The
  source then takes the button and rejects it as not an input (lines 299-301 and 328-330), so
  that label contributes nothing. The model finds no next sibling there and consults the label's
  own nested input instead.
- PasswordLocator.InputsOf: the contract states only that the result is made of inputs drawn
  from the candidates. That every candidate input is kept, in candidate order, is proved
  separately by `InputsOfKeepsInputs` and `InputsOfConcat`.
- PasswordLocator.SecondTypeStage: the contract does not list which elements are added. That
  follows from `AppendNewInputs`, whose contract says every candidate input ends up in the list.
- PasswordLocator.NamedStage: the same as `SecondTypeStage`, for the name/id/placeholder selectors.

## Findings

| source | as written | input that shows it | evidently intended | confidence | as-written member | corrected member |
|---|---|---|---|---|---|---|
| contents/workday-form-autofill.ts:131 | the "manual trigger" test reads `document.activeElement` after `fillField` (line 357) has moved focus to the last filled input, so it is never true once something was filled | `OnePasswordPage` (one `type="password"` input), the floating button focused, complete credentials, `autoFillEnabled` false: the password is filled but no notice appears | a click on the button that fills something shows the success notice, as the comment of lines 128-129 says ("either it's a manual trigger OR autoFillEnabled is true") | high; not executed | FillPlan.OnePasswordPageManualClick | FillPlan.NoticeIntended |

=== FILE: content_script.dfy ===
/** The content script's state and its state-changing operations: filling inputs, the floating
    button, the notice, and the fill controller that ties them together. */
module ContentScript {
  import opened Options
  import opened Dom
  import opened Host
  import opened Text
  import opened FieldLocator
  import opened PasswordLocator
  import opened Storage
  import opened FillPlan

  /** An element the script appends to `document.body`. */
  datatype UiNode = FloatingButton | Notice(kind: NoticeKind)

  /** What `fillField` leaves behind besides the new value: the synthetic `input` and `change`
      events it dispatches, and the blur it schedules. */
  datatype Effect = InputDispatched(target: nat) | ChangeDispatched(target: nat) | BlurScheduled(target: nat)

  function NoticeCount(body: seq<UiNode>): (n: nat)
    ensures n <= |body|
    ensures n == 0 <==> forall i | 0 <= i < |body| :: !body[i].Notice?
  {
    if |body| == 0 then 0
    else (if body[0].Notice? then 1 else 0) + NoticeCount(body[1..])
  }

  lemma {:induction false} NoticeCountConcat(a: seq<UiNode>, b: seq<UiNode>)
    ensures NoticeCount(a + b) == NoticeCount(a) + NoticeCount(b)
    decreases |a|
  {
    if |a| == 0 {
      assert a + b == b;
    } else {
      assert (a + b)[1..] == a[1..] + b;
      NoticeCountConcat(a[1..], b);
    }
  }

  lemma NoticeCountAppend(body: seq<UiNode>, x: UiNode)
    ensures NoticeCount(body + [x]) == NoticeCount(body) + (if x.Notice? then 1 else 0)
  {
    NoticeCountConcat(body, [x]);
    assert [x][1..] == [];
  }

  /** The position of the first notice in `body`, or `|body|` if there is none. */
  function FirstNoticeIndex(body: seq<UiNode>): (i: nat)
    ensures i <= |body|
    ensures forall j | 0 <= j < i :: !body[j].Notice?
    ensures i < |body| ==> body[i].Notice?
  {
    if |body| == 0 || body[0].Notice? then 0 else 1 + FirstNoticeIndex(body[1..])
  }

  /** `body` with its first notice taken out (`existingMsg.remove()`); unchanged if it has none. */
  function RemoveFirstNotice(body: seq<UiNode>): (r: seq<UiNode>)
    ensures NoticeCount(body) == 0 ==> r == body
    ensures NoticeCount(body) > 0 ==> NoticeCount(r) == NoticeCount(body) - 1
    ensures NoticeCount(body) > 0 ==> exists i | 0 <= i < |body| ::
              body[i].Notice? && (forall j | 0 <= j < i :: !body[j].Notice?) && r == body[..i] + body[i + 1..]
    ensures multiset(r)[FloatingButton] == multiset(body)[FloatingButton]
  {
    var i := FirstNoticeIndex(body);
    if i == |body| then body
    else
      assert body == body[..i] + [body[i]] + body[i + 1..];
      NoticeCountConcat(body[..i] + [body[i]], body[i + 1..]);
      NoticeCountConcat(body[..i], [body[i]]);
      NoticeCountConcat(body[..i], body[i + 1..]);
      assert [body[i]][1..] == [];
      body[..i] + body[i + 1..]
  }

  /** Appending a notice adds one notice and leaves the button count alone. */
  lemma NoticeAppended(body: seq<UiNode>, kind: NoticeKind)
    ensures NoticeCount(body + [Notice(kind)]) == NoticeCount(body) + 1
    ensures multiset(body + [Notice(kind)])[FloatingButton] == multiset(body)[FloatingButton]
    ensures FloatingButton in body + [Notice(kind)] <==> FloatingButton in body
  {
    NoticeCountAppend(body, Notice(kind));
    assert multiset(body + [Notice(kind)]) == multiset(body) + multiset{Notice(kind)};
  }

  /** The first page element that carries the notice's id and has not been removed, searched
      from position `from`: what `getElementById('workday-autofill-message')` finds before it
      reaches the nodes the script appended to the end of `body`. */
  function PageNoticeFrom(page: Page, gone: set<nat>, from: nat): (r: Option<nat>)
    ensures r.Some? ==> from <= r.value < |page| && page[r.value].id == Some(MessageId) && r.value !in gone
    ensures r.Some? ==> forall i | from <= i < r.value :: page[i].id != Some(MessageId) || i in gone
    ensures r.None? <==> forall i | from <= i < |page| :: page[i].id != Some(MessageId) || i in gone
    decreases |page| - from
  {
    if from >= |page| then None
    else if page[from].id == Some(MessageId) && from !in gone then Some(from)
    else PageNoticeFrom(page, gone, from + 1)
  }

  /** When no page element carries the notice's id, `showMessage` can have removed none. */
  lemma NothingRemovedWithoutPageNotice(page: Page, removed: set<nat>)
    requires forall i | i in removed :: i < |page| && page[i].id == Some(MessageId)
    requires GetElementById(page, MessageId).None?
    ensures removed == {}
  {
  }

  /** The page elements removed after `showMessage`: the first live page element carrying the
      notice's id joins them, if there is one. */
  function RemovedAfterShow(page: Page, removed: set<nat>): (r: set<nat>)
    ensures removed <= r && |r| <= |removed| + 1
    ensures r == removed <==> PageNoticeFrom(page, removed, 0).None?
  {
    var hit := PageNoticeFrom(page, removed, 0);
    if hit.Some? then removed + {hit.value} else removed
  }

  /** The script's nodes after `showMessage(kind)`: the new notice comes last; the script's own
      first notice is taken out first unless a page element was removed instead. */
  function BodyAfterShow(page: Page, removed: set<nat>, body: seq<UiNode>, kind: NoticeKind): (r: seq<UiNode>)
    ensures |r| > 0 && r[|r| - 1] == Notice(kind)
    ensures r[..|r| - 1] == body || r[..|r| - 1] == RemoveFirstNotice(body)
  {
    var rest := if PageNoticeFrom(page, removed, 0).Some? then body else RemoveFirstNotice(body);
    assert (rest + [Notice(kind)])[..|rest|] == rest;
    rest + [Notice(kind)]
  }

  /** The effects of a sequence of writes, three per write, in order. */
  function EffectsOf(ws: seq<Write>): (r: seq<Effect>)
    ensures |r| == 3 * |ws|
    decreases |ws|
  {
    if |ws| == 0 then []
    else
      var t := ws[|ws| - 1].target;
      EffectsOf(ws[..|ws| - 1]) + [InputDispatched(t), ChangeDispatched(t), BlurScheduled(t)]
  }

  lemma EffectsOfSnoc(ws: seq<Write>, w: Write)
    ensures EffectsOf(ws + [w]) == EffectsOf(ws) + [InputDispatched(w.target), ChangeDispatched(w.target), BlurScheduled(w.target)]
  {
    assert (ws + [w])[..|ws|] == ws;
  }

  /** The script's own button: the flag says whether it exists, there is at most one, and
      there is none when the page already has an element with the button's id. */
  predicate ButtonConsistent(page: Page, body: seq<UiNode>, floatingButton: bool)
  {
    (floatingButton <==> FloatingButton in body) &&
    multiset(body)[FloatingButton] <= 1 &&
    (GetElementById(page, ButtonId).Some? ==> !floatingButton)
  }

  /** Removed page elements carry the notice's id, and each removal allows one more notice of
      the script's to remain: with no such page element, there is at most one notice. */
  predicate NoticesConsistent(page: Page, removed: set<nat>, body: seq<UiNode>)
  {
    (forall i | i in removed :: i < |page| && page[i].id == Some(MessageId)) &&
    NoticeCount(body) <= 1 + |removed|
  }

  /** Removing a page element that carries the notice's id keeps both, and leaves room for
      one more notice. */
  lemma RemovePageNotice(page: Page, removed: set<nat>, body: seq<UiNode>, h: nat)
    requires NoticesConsistent(page, removed, body)
    requires h < |page| && page[h].id == Some(MessageId) && h !in removed
    ensures NoticesConsistent(page, removed + {h}, body)
    ensures NoticeCount(body) <= |removed + {h}|
  {
    assert |removed + {h}| == |removed| + 1;
  }

  /** Removing the script's first notice (if any) keeps both, and leaves room for one more. */
  lemma RemoveOwnNotice(page: Page, removed: set<nat>, body: seq<UiNode>, fb: bool)
    requires ButtonConsistent(page, body, fb) && NoticesConsistent(page, removed, body)
    ensures ButtonConsistent(page, RemoveFirstNotice(body), fb)
    ensures NoticesConsistent(page, removed, RemoveFirstNotice(body))
    ensures NoticeCount(RemoveFirstNotice(body)) <= |removed|
  {
  }

  /** Appending a notice where there is room for one keeps both. */
  lemma AddNotice(page: Page, removed: set<nat>, body: seq<UiNode>, fb: bool, kind: NoticeKind)
    requires ButtonConsistent(page, body, fb) && NoticesConsistent(page, removed, body)
    requires NoticeCount(body) <= |removed|
    ensures ButtonConsistent(page, body + [Notice(kind)], fb)
    ensures NoticesConsistent(page, removed, body + [Notice(kind)])
    ensures NoticeCount(body + [Notice(kind)]) == NoticeCount(body) + 1
  {
    NoticeAppended(body, kind);
  }

  lemma {:induction false} EffectsOfConcat(a: seq<Write>, b: seq<Write>)
    ensures EffectsOf(a + b) == EffectsOf(a) + EffectsOf(b)
    decreases |b|
  {
    if |b| == 0 {
      assert a + b == a;
    } else {
      assert (a + b)[..|a + b| - 1] == a + b[..|b| - 1];
      EffectsOfConcat(a, b[..|b| - 1]);
    }
  }

  lemma AppendNothing<T>(x: seq<T>)
    ensures x + [] == x
  {
  }

  /** The document as the content script sees and changes it. The host page's own elements are
      fixed; `values` holds each element's `value`; `body` lists the nodes the script appended,
      in order; `removed` holds the page elements `showMessage` took out. */
  class Document {
    const page: Page
    var values: seq<string>
    var focus: Focus
    var body: seq<UiNode>
    /** The module-level `floatingButton` variable: set once the script made its button. */
    var floatingButton: bool
    var removed: set<nat>
    var effects: seq<Effect>

    predicate Valid()
      reads this
    {
      WellFormed(page) && |values| == |page| &&
      (focus.OnPage? ==> focus.index < |page|) &&
      (focus.OnButton? ==> floatingButton) &&
      ButtonConsistent(page, body, floatingButton) &&
      NoticesConsistent(page, removed, body)
    }

    /** `document.getElementById('workday-autofill-button') !== null`. */
    predicate ButtonInDocument()
      reads this
    {
      GetElementById(page, ButtonId).Some? || FloatingButton in body
    }

    constructor (page: Page, values: seq<string>, focus: Focus)
      requires WellFormed(page) && |values| == |page|
      requires focus.OnPage? ==> focus.index < |page|
      requires !focus.OnButton?
      ensures Valid()
      ensures this.page == page && this.values == values && this.focus == focus
      ensures body == [] && !floatingButton && removed == {} && effects == []
    {
      this.page := page;
      this.values := values;
      this.focus := focus;
      body := [];
      floatingButton := false;
      removed := {};
      effects := [];
    }

    /** `fillField(field, value)`: sets the input's value, dispatches `input` and `change`,
        focuses it and schedules its blur. Nothing else changes. */
    method FillField(i: nat, v: string)
      requires Valid() && i < |page| && IsInput(page[i])
      modifies this
      ensures Valid()
      ensures values == old(values)[i := v]
      ensures focus == OnPage(i)
      ensures effects == old(effects) + [InputDispatched(i), ChangeDispatched(i), BlurScheduled(i)]
      ensures body == old(body) && floatingButton == old(floatingButton) && removed == old(removed)
    {
      values := values[i := v];
      effects := effects + [InputDispatched(i), ChangeDispatched(i)];
      focus := OnPage(i);
      effects := effects + [BlurScheduled(i)];
    }

    /** `createFloatingButton()`: a no-op when the script already made its button or the
        document holds an element with the button's id; otherwise appends the button. Either
        way the guard blocks any later call, and no button of the script's sits beside one the
        page already has. */
    method CreateFloatingButton()
      requires Valid()
      modifies this
      ensures Valid()
      ensures if old(floatingButton) || old(ButtonInDocument()) then body == old(body) && floatingButton == old(floatingButton)
              else body == old(body) + [FloatingButton] && floatingButton
      ensures floatingButton || ButtonInDocument()
      ensures GetElementById(page, ButtonId).None? ==> multiset(body)[FloatingButton] == 1
      ensures GetElementById(page, ButtonId).Some? ==> FloatingButton !in body
      ensures values == old(values) && focus == old(focus) && removed == old(removed) && effects == old(effects)
    {
      if floatingButton || GetElementById(page, ButtonId).Some? || FloatingButton in body {
        return;
      }
      NoticeCountAppend(body, FloatingButton);
      body := body + [FloatingButton];
      floatingButton := true;
    }

    /** `showMessage(message, type)`: removes the first element carrying the notice's id (a page
        element, or else the script's own notice) and appends a new notice. With no page
        element of that id, exactly one notice is left. */
    method ShowMessage(kind: NoticeKind)
      requires Valid()
      modifies this
      ensures Valid()
      ensures removed == RemovedAfterShow(page, old(removed))
      ensures body == BodyAfterShow(page, old(removed), old(body), kind)
      ensures GetElementById(page, MessageId).None? ==> NoticeCount(body) == 1
      ensures values == old(values) && focus == old(focus) && floatingButton == old(floatingButton) && effects == old(effects)
    {
      RemoveExistingNotice();
      if GetElementById(page, MessageId).None? {
        NothingRemovedWithoutPageNotice(page, removed);
      }
      AppendNotice(kind);
    }

    /** Lines 370-373: `getElementById('workday-autofill-message')`, removed if found. The page's
        own elements come before the script's nodes in document order. */
    method RemoveExistingNotice()
      requires Valid()
      modifies this
      ensures Valid() && NoticeCount(body) <= |removed|
      ensures removed == RemovedAfterShow(page, old(removed))
      ensures body == if PageNoticeFrom(page, old(removed), 0).Some? then old(body) else RemoveFirstNotice(old(body))
      ensures values == old(values) && focus == old(focus) && floatingButton == old(floatingButton) && effects == old(effects)
    {
      var hit := PageNoticeFrom(page, removed, 0);
      if hit.Some? {
        RemovePageNotice(page, removed, body, hit.value);
        removed := removed + {hit.value};
      } else {
        RemoveOwnNotice(page, removed, body, floatingButton);
        body := RemoveFirstNotice(body);
      }
    }

    /** Lines 376-403: a new notice element appended to `body`. */
    method AppendNotice(kind: NoticeKind)
      requires Valid() && NoticeCount(body) <= |removed|
      modifies this
      ensures Valid()
      ensures body == old(body) + [Notice(kind)] && NoticeCount(body) == old(NoticeCount(body)) + 1
      ensures values == old(values) && focus == old(focus) && floatingButton == old(floatingButton) &&
              removed == old(removed) && effects == old(effects)
    {
      AddNotice(page, removed, body, floatingButton, kind);
      body := body + [Notice(kind)];
    }

    /** The fills of one run with complete credentials: the email input, then the first two
        password fields. Reports whether anything was filled. */
    method FillCredentials(c: Credentials) returns (filled: bool)
      requires Valid() && !Incomplete(c)
      modifies this
      ensures Valid()
      ensures var ws := FillWrites(Locate(page), c);
              values == ApplyWrites(old(values), ws) && focus == FocusAfter(old(focus), ws) &&
              effects == old(effects) + EffectsOf(ws) && filled == (|ws| > 0)
      ensures body == old(body) && floatingButton == old(floatingButton) && removed == old(removed)
    {
      var emailInput := FindInputField(page, EmailKeywords);
      ghost var v1, f1, x1 := values, focus, effects;
      var emailFilled := FillEmail(emailInput, c);
      ghost var v2, f2, x2 := values, focus, effects;
      var passwordFields := FindPasswordFields(page);
      var passwordsFilled := FillPasswords(passwordFields, c);
      filled := emailFilled || passwordsFilled;
      ghost var a, b := EmailWrites(emailInput, c), PasswordWrites(passwordFields, c);
      assert Locate(page) == Located(emailInput, passwordFields);
      assert FillWrites(Locate(page), c) == a + b;
      ApplyWritesConcat(v1, a, b);
      FocusAfterConcat(f1, a, b);
      EffectsOfConcat(a, b);
      AppendAssociative(x1, EffectsOf(a), EffectsOf(b));
    }

    /** Lines 106-111: fill the email input, if one was found. */
    method FillEmail(e: Option<nat>, c: Credentials) returns (emailFilled: bool)
      requires Valid() && (e.Some? ==> e.value < |page| && IsInput(page[e.value]))
      modifies this
      ensures Valid()
      ensures var ws := EmailWrites(e, c);
              values == ApplyWrites(old(values), ws) && focus == FocusAfter(old(focus), ws) &&
              effects == old(effects) + EffectsOf(ws) && emailFilled == e.Some?
      ensures body == old(body) && floatingButton == old(floatingButton) && removed == old(removed)
    {
      emailFilled := false;
      if e.Some? {
        FillField(e.value, c.email);
        ApplyWritesSnoc(old(values), [], Write(e.value, c.email));
        EffectsOfSnoc([], Write(e.value, c.email));
        emailFilled := true;
      }
    }

    /** Lines 114-126: fill the first password field and, if there is one, the second. */
    method FillPasswords(p: seq<nat>, c: Credentials) returns (passwordsFilled: bool)
      requires Valid() && AllInputs(page, p)
      modifies this
      ensures Valid()
      ensures var ws := PasswordWrites(p, c);
              values == ApplyWrites(old(values), ws) && focus == FocusAfter(old(focus), ws) &&
              effects == old(effects) + EffectsOf(ws) && passwordsFilled == (|p| > 0)
      ensures body == old(body) && floatingButton == old(floatingButton) && removed == old(removed)
    {
      passwordsFilled := false;
      if |p| >= 1 {
        var w0 := Write(p[0], c.password);
        var e0 := [InputDispatched(p[0]), ChangeDispatched(p[0]), BlurScheduled(p[0])];
        assert p[0] in p;
        FillField(p[0], c.password);
        ApplyWritesSnoc(old(values), [], w0);
        EffectsOfSnoc([], w0);
        assert [] + [w0] == [w0];
        assert EffectsOf([w0]) == e0;
        if |p| >= 2 {
          var w1 := Write(p[1], c.password);
          var e1 := [InputDispatched(p[1]), ChangeDispatched(p[1]), BlurScheduled(p[1])];
          assert p[1] in p;
          FillField(p[1], c.password);
          ApplyWritesSnoc(old(values), [w0], w1);
          EffectsOfSnoc([w0], w1);
          assert [w0] + [w1] == [w0, w1] == PasswordWrites(p, c);
          AppendAssociative(old(effects), e0, e1);
        } else {
          assert [w0] == PasswordWrites(p, c);
        }
        passwordsFilled := true;
      } else {
        assert PasswordWrites(p, c) == [];
        AppendNothing(effects);
      }
    }

    /** `attemptFormFill()`, as written: the manual test after the fills (line 131) reads the
        focus `fillField` has moved. */
    method AttemptFormFill(store: Store) returns (notice: Option<NoticeKind>)
      requires Valid()
      modifies this
      ensures Valid()
      ensures var c := GetCredentials(store);
              var ws := FillWrites(Locate(page), c);
              values == ApplyWrites(old(values), ws) && focus == FocusAfter(old(focus), ws) &&
              effects == old(effects) + EffectsOf(ws) &&
              notice == NoticeAsWritten(page, Locate(page), old(focus), c)
      ensures notice.None? ==> body == old(body) && removed == old(removed)
      ensures notice.Some? ==> body == BodyAfterShow(page, old(removed), old(body), notice.value) &&
                               removed == RemovedAfterShow(page, old(removed))
      ensures notice.Some? && GetElementById(page, MessageId).None? ==> NoticeCount(body) == 1
      ensures floatingButton == old(floatingButton)
    {
      var c := GetCredentials(store);
      if c.email == "" || c.password == "" {
        AppendNothing(effects);
        if ButtonFocused(page, focus) {
          ShowMessage(Error);
          notice := Some(Error);
        } else {
          notice := None;
        }
        return;
      }
      var filled := FillCredentials(c);
      if filled && (ButtonFocused(page, focus) || c.autoFillEnabled) {
        ShowMessage(Success);
        notice := Some(Success);
      } else if !filled && ButtonFocused(page, focus) {
        ShowMessage(Warning);
        notice := Some(Warning);
      } else {
        notice := None;
      }
    }

    /** `attemptFormFill()` with "manual" read once, before any field is filled, as the comment
        of lines 128-129 intends. */
    method AttemptFormFillCorrected(store: Store) returns (notice: Option<NoticeKind>)
      requires Valid()
      modifies this
      ensures Valid()
      ensures var c := GetCredentials(store);
              var ws := FillWrites(Locate(page), c);
              values == ApplyWrites(old(values), ws) && focus == FocusAfter(old(focus), ws) &&
              effects == old(effects) + EffectsOf(ws) &&
              notice == NoticeIntended(page, Locate(page), old(focus), c)
      ensures notice.None? ==> body == old(body) && removed == old(removed)
      ensures notice.Some? ==> body == BodyAfterShow(page, old(removed), old(body), notice.value) &&
                               removed == RemovedAfterShow(page, old(removed))
      ensures notice.Some? && GetElementById(page, MessageId).None? ==> NoticeCount(body) == 1
      ensures floatingButton == old(floatingButton)
    {
      var c := GetCredentials(store);
      var manual := ButtonFocused(page, focus);
      if c.email == "" || c.password == "" {
        AppendNothing(effects);
        if manual {
          ShowMessage(Error);
          notice := Some(Error);
        } else {
          notice := None;
        }
        return;
      }
      var filled := FillCredentials(c);
      if filled && (manual || c.autoFillEnabled) {
        ShowMessage(Success);
        notice := Some(Success);
      } else if !filled && manual {
        ShowMessage(Warning);
        notice := Some(Warning);
      } else {
        notice := None;
      }
    }

    /** The button's click handler: the click gives the button focus, then `attemptFormFill()`. */
    method ClickFloatingButton(store: Store) returns (notice: Option<NoticeKind>)
      requires Valid() && floatingButton
      modifies this
      ensures Valid()
      ensures var c := GetCredentials(store);
              var ws := FillWrites(Locate(page), c);
              values == ApplyWrites(old(values), ws) && focus == FocusAfter(OnButton, ws) &&
              effects == old(effects) + EffectsOf(ws) &&
              notice == NoticeAsWritten(page, Locate(page), OnButton, c)
      ensures notice.None? ==> body == old(body) && removed == old(removed)
      ensures notice.Some? ==> body == BodyAfterShow(page, old(removed), old(body), notice.value) &&
                               removed == RemovedAfterShow(page, old(removed))
      ensures floatingButton == old(floatingButton)
      ensures !HasCredentials(store) ==> notice == Some(Error) && values == old(values)
      ensures !HasCredentials(store) && GetElementById(page, MessageId).None? ==> NoticeCount(body) == 1
      ensures HasCredentials(store) && !Found(Locate(page)) ==> notice == Some(Warning)
    {
      focus := OnButton;
      notice := AttemptFormFill(store);
    }

    /** `initializeScript()`: on a Workday host, creates the button and schedules a fill (the
        result says whether one was scheduled); elsewhere it does nothing. */
    method Initialize(hostname: string) returns (fillScheduled: bool)
      requires Valid()
      modifies this
      ensures Valid()
      ensures fillScheduled <==> Contains(hostname, "workday.com") || Contains(hostname, "myworkdayjobs.com")
      ensures fillScheduled ==> floatingButton || ButtonInDocument()
      ensures fillScheduled ==>
                if old(floatingButton) || old(ButtonInDocument()) then body == old(body) && floatingButton == old(floatingButton)
                else body == old(body) + [FloatingButton] && floatingButton
      ensures !fillScheduled ==> body == old(body) && floatingButton == old(floatingButton)
      ensures values == old(values) && focus == old(focus) && removed == old(removed) && effects == old(effects)
    {
      if IsWorkdayPage(hostname) {
        CreateFloatingButton();
        fillScheduled := true;
      } else {
        fillScheduled := false;
      }
    }
  }
}

=== FILE: dom.dfy ===
/** An abstract page: elements in document order, identified by their position, and the
    handful of DOM queries the content script uses (`querySelector`, `querySelectorAll`,
    `getElementById`), with CSS selectors reduced to predicates over one element. */
module Dom {
  import opened Options
  import opened Text

  /** One element of the page. Attributes the element does not carry are `None`.
      `nextSiblings` lists its following element siblings, nearest first
      (`nextElementSibling`, repeatedly); `descendants` lists every element inside it,
      in document order. Both hold positions in the page. */
  datatype Element = Element(
    tag: string,
    automationId: Option<string>,
    typeAttr: Option<string>,
    name: Option<string>,
    id: Option<string>,
    placeholder: Option<string>,
    ariaLabel: Option<string>,
    htmlFor: Option<string>,
    text: string,
    nextSiblings: seq<nat>,
    descendants: seq<nat>)

  /** The page's elements in document order; an element is its position. */
  type Page = seq<Element>

  /** `tagName === 'INPUT'`, equivalently `instanceof HTMLInputElement`. */
  predicate IsInput(e: Element) { e.tag == "INPUT" }

  predicate IsLabel(e: Element) { e.tag == "LABEL" }

  lemma AppendAssociative<T>(x: seq<T>, y: seq<T>, z: seq<T>)
    ensures x + y + z == x + (y + z)
  {
  }

  /** Every listed position lies below n. */
  predicate Below(xs: seq<nat>, n: nat)
  {
    forall k :: 0 <= k < |xs| ==> xs[k] < n
  }

  predicate RefsWithin(e: Element, n: nat)
  {
    Below(e.nextSiblings, n) && Below(e.descendants, n)
  }

  /** Every sibling and descendant reference names an element of the page. */
  predicate WellFormed(page: Page)
  {
    forall i :: 0 <= i < |page| ==> RefsWithin(page[i], |page|)
  }

  /** Every listed position is an input element of the page. */
  predicate AllInputs(page: Page, xs: seq<nat>)
  {
    forall x :: x in xs ==> x < |page| && IsInput(page[x])
  }

  /** No position occurs twice. */
  predicate Distinct(xs: seq<nat>)
  {
    forall a, b :: 0 <= a < b < |xs| ==> xs[a] != xs[b]
  }

  /** Strictly increasing, i.e. in document order without repetition. */
  predicate Increasing(xs: seq<nat>)
  {
    forall a, b :: 0 <= a < b < |xs| ==> xs[a] < xs[b]
  }

  /** The selectors the content script writes, one constructor per form. */
  datatype Selector =
    | AutomationIdContains(k: string)   // input[data-automation-id*="k"]
    | AutomationIdIs(v: string)         // input[data-automation-id="v"]
    | TypeIs(v: string)                 // input[type="v"]
    | NameContainsI(k: string)          // input[name*="k" i]
    | IdContainsI(k: string)            // input[id*="k" i]
    | PlaceholderContainsI(k: string)   // input[placeholder*="k" i]
    | AriaLabelContainsI(k: string)     // input[aria-label*="k" i]
    | AnyLabel                          // label
    | HasId(v: string)                  // what getElementById(v) looks for

  /** `[att*=val]` (Selectors Level 4, section 6.2): the attribute is present and contains
      val; an empty val represents nothing. */
  predicate SubstringMatch(attr: Option<string>, k: string)
  {
    attr.Some? && k != "" && Contains(attr.value, k)
  }

  /** `[att*=val i]`: the same, with ASCII case-insensitive comparison (Selectors Level 4,
      section 6.3). */
  predicate SubstringMatchI(attr: Option<string>, k: string)
  {
    attr.Some? && k != "" && Contains(Lower(attr.value), Lower(k))
  }

  predicate Matches(e: Element, s: Selector): (b: bool)
    ensures b && IsInputSelector(s) ==> IsInput(e)
    ensures b && s.AnyLabel? ==> IsLabel(e)
    ensures s.AutomationIdContains? && s.k == "" ==> !b
    ensures (s.NameContainsI? || s.IdContainsI? || s.PlaceholderContainsI? || s.AriaLabelContainsI?) && s.k == "" ==> !b
  {
    match s
    case AutomationIdContains(k) => IsInput(e) && SubstringMatch(e.automationId, k)
    case AutomationIdIs(v) => IsInput(e) && e.automationId == Some(v)
    case TypeIs(v) => IsInput(e) && e.typeAttr == Some(v)
    case NameContainsI(k) => IsInput(e) && SubstringMatchI(e.name, k)
    case IdContainsI(k) => IsInput(e) && SubstringMatchI(e.id, k)
    case PlaceholderContainsI(k) => IsInput(e) && SubstringMatchI(e.placeholder, k)
    case AriaLabelContainsI(k) => IsInput(e) && SubstringMatchI(e.ariaLabel, k)
    case AnyLabel => IsLabel(e)
    case HasId(v) => e.id == Some(v)
  }

  /** A selector whose type selector is `input`. */
  predicate IsInputSelector(s: Selector)
  {
    !s.AnyLabel? && !s.HasId?
  }

  /** A selector list (`a, b, c`) matches when one of its selectors does. */
  predicate MatchesList(e: Element, group: seq<Selector>)
  {
    exists s | s in group :: Matches(e, s)
  }

  /** A one-selector list matches exactly what its selector matches. */
  lemma MatchesSingle(e: Element, s: Selector)
    ensures MatchesList(e, [s]) <==> Matches(e, s)
  {
    assert s in [s];
  }

  /** The matching elements at positions from `from` on, in document order. */
  function MatchesFrom(page: Page, group: seq<Selector>, from: nat): (r: seq<nat>)
    decreases |page| - from
    ensures forall i: nat :: i in r <==> from <= i < |page| && MatchesList(page[i], group)
    ensures Increasing(r)
    ensures (forall i :: from <= i < |page| ==> !MatchesList(page[i], group)) ==> r == []
  {
    if from >= |page| then []
    else
      var rest := MatchesFrom(page, group, from + 1);
      if MatchesList(page[from], group) then
        assert forall b :: 0 <= b < |rest| ==> rest[b] in rest;
        [from] + rest
      else rest
  }

  /** `document.querySelectorAll(group)`: every matching element, each once, in document order. */
  function QuerySelectorAll(page: Page, group: seq<Selector>): (r: seq<nat>)
    ensures forall i: nat :: i in r <==> i < |page| && MatchesList(page[i], group)
    ensures Increasing(r) && Distinct(r) && Below(r, |page|)
    ensures (forall i :: 0 <= i < |page| ==> !MatchesList(page[i], group)) ==> r == []
  {
    var r := MatchesFrom(page, group, 0);
    assert forall k :: 0 <= k < |r| ==> r[k] in r;
    r
  }

  /** `document.querySelector(group)`: the first matching element in document order. */
  function QuerySelector(page: Page, group: seq<Selector>): (r: Option<nat>)
    ensures r.Some? ==> r.value < |page| && MatchesList(page[r.value], group)
    ensures r.Some? ==> forall j :: 0 <= j < r.value ==> !MatchesList(page[j], group)
    ensures r.None? <==> forall j :: 0 <= j < |page| ==> !MatchesList(page[j], group)
  {
    var all := QuerySelectorAll(page, group);
    if all == [] then None
    else
      assert all[0] in all;
      assert forall j :: 0 <= j < all[0] ==> j !in all;
      Some(all[0])
  }

  /** `document.getElementById(id)`: the first element carrying that id. */
  function GetElementById(page: Page, id: string): (r: Option<nat>)
    ensures r.Some? ==> r.value < |page| && page[r.value].id == Some(id)
    ensures r.Some? ==> forall j :: 0 <= j < r.value ==> page[j].id != Some(id)
    ensures r.None? <==> forall j :: 0 <= j < |page| ==> page[j].id != Some(id)
  {
    var r := QuerySelector(page, [HasId(id)]);
    assert forall j :: 0 <= j < |page| ==> (MatchesList(page[j], [HasId(id)]) <==> page[j].id == Some(id)) by {
      forall j | 0 <= j < |page| ensures MatchesList(page[j], [HasId(id)]) <==> page[j].id == Some(id) {
        assert HasId(id) in [HasId(id)];
      }
    }
    r
  }

  /** The position in xs of the first input element, or |xs| when there is none. */
  function FirstInputIndex(page: Page, xs: seq<nat>): (k: nat)
    requires Below(xs, |page|)
    ensures k <= |xs|
    ensures forall j :: 0 <= j < k ==> !IsInput(page[xs[j]])
    ensures k < |xs| ==> IsInput(page[xs[k]])
  {
    if xs == [] then 0
    else if IsInput(page[xs[0]]) then 0
    else 1 + FirstInputIndex(page, xs[1..])
  }

  /** `el.querySelector('input')`: the first input inside the element, in document order. */
  function NestedInput(page: Page, el: nat): (r: Option<nat>)
    requires WellFormed(page) && el < |page|
    ensures r.Some? ==> r.value < |page| && r.value in page[el].descendants && IsInput(page[r.value])
    ensures r.Some? ==> exists k :: 0 <= k < |page[el].descendants| && page[el].descendants[k] == r.value &&
                          forall i :: 0 <= i < k ==> !IsInput(page[page[el].descendants[i]])
    ensures r.None? <==> forall k :: 0 <= k < |page[el].descendants| ==> !IsInput(page[page[el].descendants[k]])
  {
    assert RefsWithin(page[el], |page|);
    var ds := page[el].descendants;
    var k := FirstInputIndex(page, ds);
    if k < |ds| then Some(ds[k]) else None
  }
}

=== FILE: field_locator.dfy ===
/** `findInputField`: a read-only, tiered first-match search for one input element.
    Tier 1 is the platform's automation id, tier 2 the conventional attributes
    (type, name, id, placeholder, aria-label), tier 3 the text of labels. */
module FieldLocator {
  import opened Options
  import opened Text
  import opened Dom

  /** JavaScript's `a || b` on two lookups: the first one that found something. */
  function Or(a: Option<nat>, b: Option<nat>): Option<nat>
  {
    if a.Some? then a else b
  }

  /** The conventional attributes, in the order the source tries them. */
  datatype Attribute = TypeAttribute | NameAttribute | IdAttribute | PlaceholderAttribute | AriaLabelAttribute

  /** The selector tried for one attribute and one keyword: `type` matches exactly, the
      other four by case-insensitive substring. */
  function AttributeSelector(a: Attribute, k: string): (s: Selector)
    ensures IsInputSelector(s)
  {
    match a
    case TypeAttribute => TypeIs(k)
    case NameAttribute => NameContainsI(k)
    case IdAttribute => IdContainsI(k)
    case PlaceholderAttribute => PlaceholderContainsI(k)
    case AriaLabelAttribute => AriaLabelContainsI(k)
  }

  /** `keywords.map(k => ...)` for one attribute. */
  function PerKeyword(a: Attribute, keywords: seq<string>): (r: seq<Selector>)
    ensures |r| == |keywords|
    ensures forall j :: 0 <= j < |keywords| ==> r[j] == AttributeSelector(a, keywords[j])
  {
    seq(|keywords|, j requires 0 <= j < |keywords| => AttributeSelector(a, keywords[j]))
  }

  /** The automation-id selectors, one per keyword, in keyword order. */
  function AutomationSelectors(keywords: seq<string>): (r: seq<Selector>)
    ensures |r| == |keywords|
    ensures forall j :: 0 <= j < |keywords| ==> r[j] == AutomationIdContains(keywords[j])
  {
    seq(|keywords|, j requires 0 <= j < |keywords| => AutomationIdContains(keywords[j]))
  }

  /** The `selectors` array: every keyword for `type`, then every keyword for `name`, and so on. */
  function ConventionalSelectors(keywords: seq<string>): (r: seq<Selector>)
    ensures |r| == 5 * |keywords|
  {
    PerKeyword(TypeAttribute, keywords) + PerKeyword(NameAttribute, keywords) + PerKeyword(IdAttribute, keywords)
    + PerKeyword(PlaceholderAttribute, keywords) + PerKeyword(AriaLabelAttribute, keywords)
  }

  /** The position in sels of the first selector that finds an element, or |sels|. */
  function FirstHitIndex(page: Page, sels: seq<Selector>): (j: nat)
    ensures j <= |sels|
    ensures forall i :: 0 <= i < j ==> QuerySelector(page, [sels[i]]).None?
    ensures j < |sels| ==> QuerySelector(page, [sels[j]]).Some?
  {
    if sels == [] then 0
    else if QuerySelector(page, [sels[0]]).Some? then 0
    else 1 + FirstHitIndex(page, sels[1..])
  }

  /** `for (const selector of selectors) { const input = querySelector(selector); if (input) return input }`:
      the first element in document order of the first selector, in list order, that finds one. */
  function FirstHit(page: Page, sels: seq<Selector>): (r: Option<nat>)
    ensures r.None? <==> forall s :: s in sels ==> QuerySelector(page, [s]).None?
    ensures r.Some? ==> exists j :: 0 <= j < |sels| && r == QuerySelector(page, [sels[j]]) &&
                          forall i :: 0 <= i < j ==> QuerySelector(page, [sels[i]]).None?
    ensures r.Some? && (forall s :: s in sels ==> IsInputSelector(s)) ==> r.value < |page| && IsInput(page[r.value])
  {
    var j := FirstHitIndex(page, sels);
    if j < |sels| then
      assert sels[j] in sels && sels[j] in [sels[j]];
      QuerySelector(page, [sels[j]])
    else None
  }

  lemma {:induction false} FirstHitIndexConcat(page: Page, a: seq<Selector>, b: seq<Selector>)
    ensures FirstHitIndex(page, a + b) ==
              if FirstHitIndex(page, a) < |a| then FirstHitIndex(page, a) else |a| + FirstHitIndex(page, b)
  {
    if a == [] {
      assert a + b == b;
    } else {
      assert (a + b)[0] == a[0];
      assert (a + b)[1..] == a[1..] + b;
      if QuerySelector(page, [a[0]]).None? {
        FirstHitIndexConcat(page, a[1..], b);
      }
    }
  }

  /** Trying two selector lists one after the other is trying their concatenation. */
  lemma FirstHitConcat(page: Page, a: seq<Selector>, b: seq<Selector>)
    ensures FirstHit(page, a + b) == Or(FirstHit(page, a), FirstHit(page, b))
  {
    FirstHitIndexConcat(page, a, b);
    var j := FirstHitIndex(page, a);
    if j < |a| {
      assert (a + b)[j] == a[j];
    } else {
      var k := FirstHitIndex(page, b);
      if k < |b| {
        assert (a + b)[|a| + k] == b[k];
      }
    }
  }

  /** The label's text, lower-cased, contains one of the keywords, lower-cased. */
  predicate MentionsKeyword(e: Element, keywords: seq<string>): (b: bool)
    ensures b ==> exists k | k in keywords :: |k| <= |e.text|
    ensures "" in keywords ==> b
  {
    exists k | k in keywords :: Contains(Lower(e.text), Lower(k))
  }

  /** The element a label's non-empty `for` attribute names, if any: `getElementById(forId)`. */
  function ForTarget(page: Page, l: nat): (r: Option<nat>)
    requires l < |page|
    ensures r.Some? ==> r.value < |page| && page[l].htmlFor.Some? && page[l].htmlFor.value != ""
                        && page[r.value].id == page[l].htmlFor
    ensures page[l].htmlFor.Some? && page[l].htmlFor.value != "" ==> r == GetElementById(page, page[l].htmlFor.value)
    ensures page[l].htmlFor.None? || page[l].htmlFor.value == "" ==> r.None?
  {
    match page[l].htmlFor
    case Some(f) => if f != "" then GetElementById(page, f) else None
    case None => None
  }

  /** One step of the sibling walk: the sibling itself when it is an input, else the first input inside it. */
  function SiblingInput(page: Page, s: nat): (r: Option<nat>)
    requires WellFormed(page) && s < |page|
    ensures r.Some? ==> r.value < |page| && IsInput(page[r.value])
    ensures r.None? <==> !IsInput(page[s]) && NestedInput(page, s).None?
    ensures IsInput(page[s]) ==> r == Some(s)
    ensures !IsInput(page[s]) ==> r == NestedInput(page, s)
  {
    if IsInput(page[s]) then Some(s) else NestedInput(page, s)
  }

  /** The position of the first following sibling that yields an input, or |siblings|. */
  function SiblingHitIndex(page: Page, siblings: seq<nat>): (k: nat)
    requires WellFormed(page) && Below(siblings, |page|)
    ensures k <= |siblings|
    ensures forall i :: 0 <= i < k ==> SiblingInput(page, siblings[i]).None?
    ensures k < |siblings| ==> SiblingInput(page, siblings[k]).Some?
  {
    if siblings == [] then 0
    else if SiblingInput(page, siblings[0]).Some? then 0
    else 1 + SiblingHitIndex(page, siblings[1..])
  }

  /** The `while (sibling)` walk over `nextElementSibling`. */
  function AdjacentInput(page: Page, siblings: seq<nat>): (r: Option<nat>)
    requires WellFormed(page) && Below(siblings, |page|)
    ensures r.Some? ==> r.value < |page| && IsInput(page[r.value])
    ensures r.Some? ==> exists k :: 0 <= k < |siblings| && r == SiblingInput(page, siblings[k]) &&
                          forall i :: 0 <= i < k ==> SiblingInput(page, siblings[i]).None?
    ensures r.None? <==> forall k :: 0 <= k < |siblings| ==> SiblingInput(page, siblings[k]).None?
  {
    var k := SiblingHitIndex(page, siblings);
    if k < |siblings| then SiblingInput(page, siblings[k]) else None
  }

  /** What one matching label yields: its `for` target when that is an input, else the sibling walk. */
  function LabelResolution(page: Page, l: nat): (r: Option<nat>)
    requires WellFormed(page) && l < |page|
    ensures r.Some? ==> r.value < |page| && IsInput(page[r.value])
    ensures ForTarget(page, l).Some? && IsInput(page[ForTarget(page, l).value]) ==> r == ForTarget(page, l)
    ensures !(ForTarget(page, l).Some? && IsInput(page[ForTarget(page, l).value])) ==>
              r == AdjacentInput(page, page[l].nextSiblings)
  {
    var t := ForTarget(page, l);
    if t.Some? && IsInput(page[t.value]) then t
    else
      assert RefsWithin(page[l], |page|);
      AdjacentInput(page, page[l].nextSiblings)
  }

  /** A label that mentions a keyword and resolves to an input. */
  predicate LabelHit(page: Page, keywords: seq<string>, l: nat)
    requires WellFormed(page) && l < |page|
  {
    MentionsKeyword(page[l], keywords) && LabelResolution(page, l).Some?
  }

  /** The position of the first label that mentions a keyword and resolves, or |labels|. */
  function LabelHitIndex(page: Page, keywords: seq<string>, labels: seq<nat>): (k: nat)
    requires WellFormed(page) && Below(labels, |page|)
    ensures k <= |labels|
    ensures forall i :: 0 <= i < k ==> !LabelHit(page, keywords, labels[i])
    ensures k < |labels| ==> LabelHit(page, keywords, labels[k])
  {
    if labels == [] then 0
    else if LabelHit(page, keywords, labels[0]) then 0
    else 1 + LabelHitIndex(page, keywords, labels[1..])
  }

  /** The `for (const label of labels)` loop: the input of the first label that yields one. */
  function LabelTier(page: Page, keywords: seq<string>, labels: seq<nat>): (r: Option<nat>)
    requires WellFormed(page) && Below(labels, |page|)
    ensures r.Some? ==> r.value < |page| && IsInput(page[r.value])
    ensures r.Some? ==> exists k :: 0 <= k < |labels| && LabelHit(page, keywords, labels[k]) &&
                          r == LabelResolution(page, labels[k]) &&
                          forall i :: 0 <= i < k ==> !LabelHit(page, keywords, labels[i])
    ensures r.None? <==> forall k :: 0 <= k < |labels| ==> !LabelHit(page, keywords, labels[k])
  {
    var k := LabelHitIndex(page, keywords, labels);
    if k < |labels| then LabelResolution(page, labels[k]) else None
  }

  /** The page's labels in document order: `document.querySelectorAll('label')`. */
  function Labels(page: Page): (r: seq<nat>)
    ensures Below(r, |page|) && Increasing(r)
    ensures forall l: nat :: l in r <==> l < |page| && IsLabel(page[l])
    ensures (forall l :: 0 <= l < |page| ==> !IsLabel(page[l])) ==> r == []
  {
    var r := QuerySelectorAll(page, [AnyLabel]);
    assert forall l: nat :: l < |page| ==> (MatchesList(page[l], [AnyLabel]) <==> IsLabel(page[l])) by {
      forall l: nat | l < |page| ensures MatchesList(page[l], [AnyLabel]) <==> IsLabel(page[l]) {
        assert AnyLabel in [AnyLabel];
      }
    }
    assert forall k :: 0 <= k < |r| ==> r[k] in r;
    r
  }

  /** No keyword's automation-id selector finds an element. */
  predicate AutomationMiss(page: Page, keywords: seq<string>)
  {
    forall k :: 0 <= k < |keywords| ==> QuerySelector(page, [AutomationIdContains(keywords[k])]).None?
  }

  /** No attribute selector finds an element, for any keyword. */
  predicate ConventionalMiss(page: Page, keywords: seq<string>)
  {
    forall a: Attribute, k :: 0 <= k < |keywords| ==> QuerySelector(page, [AttributeSelector(a, keywords[k])]).None?
  }

  /** No label of the page mentions a keyword and resolves to an input. */
  predicate LabelMiss(page: Page, keywords: seq<string>)
    requires WellFormed(page)
  {
    forall l :: 0 <= l < |page| && IsLabel(page[l]) ==> !LabelHit(page, keywords, l)
  }

  /** `findInputField(keywords)`: the automation-id tier, then the conventional selectors,
      then the labels; the result is an input, and there is none only when every tier misses. */
  function FindInputField(page: Page, keywords: seq<string>): (r: Option<nat>)
    requires WellFormed(page)
    ensures r.Some? ==> r.value < |page| && IsInput(page[r.value])
    ensures r.None? <==> AutomationMiss(page, keywords) && ConventionalMiss(page, keywords) && LabelMiss(page, keywords)
  {
    AutomationTierMiss(page, keywords);
    ConventionalTierMiss(page, keywords);
    LabelTierMiss(page, keywords);
    Or(FirstHit(page, AutomationSelectors(keywords)),
       Or(FirstHit(page, ConventionalSelectors(keywords)), LabelTier(page, keywords, Labels(page))))
  }

  lemma AutomationTierMiss(page: Page, keywords: seq<string>)
    ensures FirstHit(page, AutomationSelectors(keywords)).None? <==> AutomationMiss(page, keywords)
    ensures FirstHit(page, AutomationSelectors(keywords)).Some? ==>
              FirstHit(page, AutomationSelectors(keywords)).value < |page| &&
              IsInput(page[FirstHit(page, AutomationSelectors(keywords)).value])
  {
    AutomationCover(keywords);
  }

  lemma ConventionalTierMiss(page: Page, keywords: seq<string>)
    ensures FirstHit(page, ConventionalSelectors(keywords)).None? <==> ConventionalMiss(page, keywords)
    ensures FirstHit(page, ConventionalSelectors(keywords)).Some? ==>
              FirstHit(page, ConventionalSelectors(keywords)).value < |page| &&
              IsInput(page[FirstHit(page, ConventionalSelectors(keywords)).value])
  {
    ConventionalCover(keywords);
  }

  lemma LabelTierMiss(page: Page, keywords: seq<string>)
    requires WellFormed(page)
    ensures LabelTier(page, keywords, Labels(page)).None? <==> LabelMiss(page, keywords)
  {
    var labels := Labels(page);
    assert forall k :: 0 <= k < |labels| ==> labels[k] in labels;
    forall l | 0 <= l < |page| && IsLabel(page[l]) ensures exists k :: 0 <= k < |labels| && labels[k] == l {
      assert l in labels;
    }
  }

  /** The automation selectors are exactly one per keyword. */
  lemma AutomationCover(keywords: seq<string>)
    ensures forall s :: s in AutomationSelectors(keywords) ==> IsInputSelector(s)
    ensures forall s :: s in AutomationSelectors(keywords) <==>
              exists k :: 0 <= k < |keywords| && s == AutomationIdContains(keywords[k])
  {
    var r := AutomationSelectors(keywords);
    forall s | s in r ensures exists k :: 0 <= k < |keywords| && s == AutomationIdContains(keywords[k]) {
      var k :| 0 <= k < |r| && r[k] == s;
    }
  }

  /** The conventional selectors are exactly one per attribute and keyword. */
  lemma ConventionalCover(keywords: seq<string>)
    ensures forall s :: s in ConventionalSelectors(keywords) ==> IsInputSelector(s)
    ensures forall s :: s in ConventionalSelectors(keywords) <==>
              exists a: Attribute, k :: 0 <= k < |keywords| && s == AttributeSelector(a, keywords[k])
  {
    var r := ConventionalSelectors(keywords);
    forall s | s in r
      ensures exists a: Attribute, k :: 0 <= k < |keywords| && s == AttributeSelector(a, keywords[k])
    {
      var a: Attribute :| s in PerKeyword(a, keywords);
      var k :| 0 <= k < |keywords| && PerKeyword(a, keywords)[k] == s;
    }
    forall a: Attribute, k | 0 <= k < |keywords| ensures AttributeSelector(a, keywords[k]) in r {
      assert PerKeyword(a, keywords)[k] in PerKeyword(a, keywords);
    }
  }

  /** Tier order: the automation tier, then each conventional attribute for every keyword,
      in the order type, name, id, placeholder, aria-label, then the labels. */
  lemma TierOrder(page: Page, keywords: seq<string>)
    requires WellFormed(page)
    ensures FindInputField(page, keywords) ==
      Or(FirstHit(page, AutomationSelectors(keywords)),
      Or(FirstHit(page, PerKeyword(TypeAttribute, keywords)),
      Or(FirstHit(page, PerKeyword(NameAttribute, keywords)),
      Or(FirstHit(page, PerKeyword(IdAttribute, keywords)),
      Or(FirstHit(page, PerKeyword(PlaceholderAttribute, keywords)),
      Or(FirstHit(page, PerKeyword(AriaLabelAttribute, keywords)),
         LabelTier(page, keywords, Labels(page))))))))
  {
    FindInputFieldTiers(page, keywords);
    ConventionalOrder(page, keywords);
  }

  /** `findInputField` is the automation tier, else the conventional tier, else the label tier. */
  lemma FindInputFieldTiers(page: Page, keywords: seq<string>)
    requires WellFormed(page)
    ensures FindInputField(page, keywords) ==
      Or(FirstHit(page, AutomationSelectors(keywords)),
      Or(FirstHit(page, ConventionalSelectors(keywords)), LabelTier(page, keywords, Labels(page))))
  {
  }

  /** The conventional tier tries `type`, then `name`, `id`, `placeholder` and `aria-label`,
      each for every keyword. */
  lemma ConventionalOrder(page: Page, keywords: seq<string>)
    ensures FirstHit(page, ConventionalSelectors(keywords)) ==
      Or(FirstHit(page, PerKeyword(TypeAttribute, keywords)),
      Or(FirstHit(page, PerKeyword(NameAttribute, keywords)),
      Or(FirstHit(page, PerKeyword(IdAttribute, keywords)),
      Or(FirstHit(page, PerKeyword(PlaceholderAttribute, keywords)),
         FirstHit(page, PerKeyword(AriaLabelAttribute, keywords))))))
  {
    var t, n, i, p, a :=
      PerKeyword(TypeAttribute, keywords), PerKeyword(NameAttribute, keywords), PerKeyword(IdAttribute, keywords),
      PerKeyword(PlaceholderAttribute, keywords), PerKeyword(AriaLabelAttribute, keywords);
    FirstHitConcat(page, t + n + i + p, a);
    FirstHitConcat(page, t + n + i, p);
    FirstHitConcat(page, t + n, i);
    FirstHitConcat(page, t, n);
  }

  /** An automation-id match for any keyword wins over every other tier: the result is the
      first element matched by the first keyword, in keyword order, whose automation selector matches. */
  lemma AutomationTierWins(page: Page, keywords: seq<string>, k: nat)
    requires WellFormed(page) && k < |keywords|
    requires QuerySelector(page, [AutomationIdContains(keywords[k])]).Some?
    ensures exists j :: 0 <= j <= k &&
              FindInputField(page, keywords) == QuerySelector(page, [AutomationIdContains(keywords[j])]) &&
              forall i :: 0 <= i < j ==> QuerySelector(page, [AutomationIdContains(keywords[i])]).None?
  {
    AutomationFirstHit(page, keywords, k);
    TierOrder(page, keywords);
  }

  /** The automation tier on its own: its first hit comes from a keyword no later than k. */
  lemma AutomationFirstHit(page: Page, keywords: seq<string>, k: nat)
    requires k < |keywords|
    requires QuerySelector(page, [AutomationIdContains(keywords[k])]).Some?
    ensures FirstHitIndex(page, AutomationSelectors(keywords)) <= k
    ensures FirstHit(page, AutomationSelectors(keywords)) ==
              QuerySelector(page, [AutomationIdContains(keywords[FirstHitIndex(page, AutomationSelectors(keywords))])])
  {
    var auto := AutomationSelectors(keywords);
    assert auto[k] == AutomationIdContains(keywords[k]);
  }
}

=== FILE: fill_plan.dfy ===
/** What one run of `attemptFormFill` decides, as functions of the page, the focus at entry and
    the stored credentials: which inputs receive which value, where focus ends up, and which
    notice (if any) is shown. */
module FillPlan {
  import opened Options
  import opened Dom
  import opened FieldLocator
  import opened PasswordLocator
  import opened Storage

  /** The fixed ids of the two elements the content script adds to the page. */
  const ButtonId: string := "workday-autofill-button"
  const MessageId: string := "workday-autofill-message"

  /** `findInputField(['email'])`. */
  const EmailKeywords: seq<string> := ["email"]

  datatype NoticeKind = Success | Warning | Error

  /** `document.activeElement`: the body (nothing focused), a page element, or the floating button. */
  datatype Focus = NoFocus | OnPage(index: nat) | OnButton

  /** One `fillField(target, value)` call. */
  datatype Write = Write(target: nat, value: string)

  /** `document.activeElement?.id === 'workday-autofill-button'`, the script's test for a manual run. */
  predicate ButtonFocused(page: Page, focus: Focus): (b: bool)
    ensures focus.OnButton? ==> b
    ensures focus.NoFocus? ==> !b
    ensures GetElementById(page, ButtonId).None? ==> (b <==> focus.OnButton?)
  {
    match focus
    case NoFocus => false
    case OnButton => true
    case OnPage(i) => i < |page| && page[i].id == Some(ButtonId)
  }

  /** `!credentials.email || !credentials.password`. */
  predicate Incomplete(c: Credentials): (b: bool)
    ensures c == DefaultCredentials ==> b
    ensures !b ==> |c.email| > 0 && |c.password| > 0
  {
    c.email == "" || c.password == ""
  }

  /** The fill controller gives up exactly when `hasCredentials()` would say no. */
  lemma IncompleteIffNoCredentials(store: Store)
    ensures Incomplete(GetCredentials(store)) <==> !HasCredentials(store)
  {
  }

  /** The inputs one run locates: `findInputField(['email'])` and `findPasswordFields()`. */
  datatype Located = Located(email: Option<nat>, passwords: seq<nat>)

  /** What the locators guarantee about their results on `page`. */
  predicate LocatedIn(page: Page, loc: Located)
  {
    (loc.email.Some? ==> loc.email.value < |page| && IsInput(page[loc.email.value])) &&
    Distinct(loc.passwords) && AllInputs(page, loc.passwords)
  }

  function Locate(page: Page): (loc: Located)
    requires WellFormed(page)
    ensures LocatedIn(page, loc)
    ensures loc.email.None? <==> AutomationMiss(page, EmailKeywords) && ConventionalMiss(page, EmailKeywords) && LabelMiss(page, EmailKeywords)
  {
    Located(FindInputField(page, EmailKeywords), PasswordFields(page))
  }

  /** Something is found to fill: an email input, or at least one password field. */
  predicate Found(loc: Located)
  {
    loc.email.Some? || |loc.passwords| > 0
  }

  /** Whether `j` is one of the first two password fields, the ones that receive the password. */
  predicate PasswordTarget(p: seq<nat>, j: nat)
  {
    (|p| >= 1 && p[0] == j) || (|p| >= 2 && p[1] == j)
  }

  /** Lines 106-111: the email input, if found, gets the email. */
  function EmailWrites(e: Option<nat>, c: Credentials): (ws: seq<Write>)
    ensures |ws| <= 1 && (|ws| == 1 <==> e.Some?)
  {
    if e.Some? then [Write(e.value, c.email)] else []
  }

  /** Lines 114-126: the first and the second password field, if present, get the password. */
  function PasswordWrites(p: seq<nat>, c: Credentials): (ws: seq<Write>)
    ensures |ws| <= 2 && (|ws| > 0 <==> |p| > 0)
    ensures forall k | 0 <= k < |ws| :: PasswordTarget(p, ws[k].target)
  {
    (if |p| >= 1 then [Write(p[0], c.password)] else [])
    + (if |p| >= 2 then [Write(p[1], c.password)] else [])
  }

  /** The `fillField` calls of one run, in order: the email input (if found), then the first
      and the second password field (if present); none when the credentials are incomplete. */
  function FillWrites(loc: Located, c: Credentials): (ws: seq<Write>)
    ensures Incomplete(c) ==> ws == []
    ensures !Incomplete(c) ==> (|ws| > 0 <==> Found(loc))
    ensures |ws| <= 3
    ensures forall k | 0 <= k < |ws| :: loc.email == Some(ws[k].target) || PasswordTarget(loc.passwords, ws[k].target)
  {
    if Incomplete(c) then []
    else EmailWrites(loc.email, c) + PasswordWrites(loc.passwords, c)
  }

  /** Every write of a run targets an input of the page. */
  lemma WritesTargetInputs(page: Page, loc: Located, c: Credentials)
    requires LocatedIn(page, loc)
    ensures forall k | 0 <= k < |FillWrites(loc, c)| ::
              FillWrites(loc, c)[k].target < |page| && IsInput(page[FillWrites(loc, c)[k].target])
  {
    var ws := FillWrites(loc, c);
    forall k | 0 <= k < |ws| ensures ws[k].target < |page| && IsInput(page[ws[k].target]) {
      var p := loc.passwords;
      if loc.email != Some(ws[k].target) {
        assert PasswordTarget(p, ws[k].target);
        assert p[0] in p;
        assert |p| >= 2 ==> p[1] in p;
      }
    }
  }

  /** The value the last write to `j` stores, if any write targets `j`. */
  function LastWriteTo(ws: seq<Write>, j: nat): (r: Option<string>)
    ensures r.None? <==> forall k | 0 <= k < |ws| :: ws[k].target != j
    ensures r.Some? ==> exists k | 0 <= k < |ws| :: ws[k] == Write(j, r.value) &&
                          forall m | k < m < |ws| :: ws[m].target != j
    decreases |ws|
  {
    if |ws| == 0 then None
    else if ws[|ws| - 1].target == j then Some(ws[|ws| - 1].value)
    else
      var r := LastWriteTo(ws[..|ws| - 1], j);
      assert forall k | 0 <= k < |ws| - 1 :: ws[..|ws| - 1][k] == ws[k];
      r
  }

  /** The input values after the writes run in order. A write outside the page would change
      nothing; writes only ever target inputs of the page (`WritesTargetInputs`). */
  function ApplyWrites(values: seq<string>, ws: seq<Write>): (r: seq<string>)
    ensures |r| == |values|
    decreases |ws|
  {
    if |ws| == 0 then values
    else
      var w := ws[|ws| - 1];
      var before := ApplyWrites(values, ws[..|ws| - 1]);
      if w.target < |values| then before[w.target := w.value] else before
  }

  /** Each input holds the value of the last write that targets it, or its old value when no
      write does. */
  lemma {:induction false} ApplyWritesPointwise(values: seq<string>, ws: seq<Write>)
    ensures forall j | 0 <= j < |values| ::
              ApplyWrites(values, ws)[j] == (if LastWriteTo(ws, j).Some? then LastWriteTo(ws, j).value else values[j])
    decreases |ws|
  {
    if |ws| > 0 {
      ApplyWritesPointwise(values, ws[..|ws| - 1]);
    }
  }

  lemma ApplyWritesSnoc(values: seq<string>, ws: seq<Write>, w: Write)
    requires w.target < |values|
    ensures ApplyWrites(values, ws + [w]) == ApplyWrites(values, ws)[w.target := w.value]
  {
    assert (ws + [w])[..|ws|] == ws;
  }

  lemma {:induction false} ApplyWritesConcat(values: seq<string>, a: seq<Write>, b: seq<Write>)
    ensures ApplyWrites(values, a + b) == ApplyWrites(ApplyWrites(values, a), b)
    decreases |b|
  {
    if |b| == 0 {
      assert a + b == a;
    } else {
      assert (a + b)[..|a + b| - 1] == a + b[..|b| - 1];
      ApplyWritesConcat(values, a, b[..|b| - 1]);
    }
  }

  /** Focus after the writes: each `fillField` focuses its input, so the last one written keeps it. */
  function FocusAfter(focus: Focus, ws: seq<Write>): (r: Focus)
    ensures |ws| == 0 ==> r == focus
    ensures |ws| > 0 ==> r == OnPage(ws[|ws| - 1].target)
    ensures |ws| > 0 ==> !r.OnButton?
  {
    if |ws| == 0 then focus else OnPage(ws[|ws| - 1].target)
  }

  lemma FocusAfterConcat(focus: Focus, a: seq<Write>, b: seq<Write>)
    ensures FocusAfter(focus, a + b) == FocusAfter(FocusAfter(focus, a), b)
  {
    if |b| > 0 {
      assert (a + b)[|a + b| - 1] == b[|b| - 1];
    } else {
      assert a + b == a;
    }
  }

  /** The notice `attemptFormFill` shows, as written: the manual test of line 131 reads the focus
      after the fills, when `fillField` has already moved it to the last filled input. */
  function NoticeAsWritten(page: Page, loc: Located, focus: Focus, c: Credentials): (r: Option<NoticeKind>)
    ensures r == Some(Error) <==> Incomplete(c) && ButtonFocused(page, focus)
    ensures r == Some(Warning) <==> !Incomplete(c) && !Found(loc) && ButtonFocused(page, focus)
    ensures r == Some(Success) ==> !Incomplete(c) && Found(loc)
    ensures !Incomplete(c) && Found(loc) && c.autoFillEnabled ==> r == Some(Success)
  {
    if Incomplete(c) then
      if ButtonFocused(page, focus) then Some(Error) else None
    else
      var ws := FillWrites(loc, c);
      var manual := ButtonFocused(page, FocusAfter(focus, ws));
      if |ws| > 0 && (manual || c.autoFillEnabled) then Some(Success)
      else if |ws| == 0 && manual then Some(Warning)
      else None
  }

  /** The notice as the comment of lines 128-129 describes it: "manual" is whether the button
      had focus when the run started. */
  function NoticeIntended(page: Page, loc: Located, focus: Focus, c: Credentials): (r: Option<NoticeKind>)
    ensures r == Some(Error) <==> Incomplete(c) && ButtonFocused(page, focus)
    ensures r == Some(Success) <==> !Incomplete(c) && Found(loc) && (ButtonFocused(page, focus) || c.autoFillEnabled)
    ensures r == Some(Warning) <==> !Incomplete(c) && !Found(loc) && ButtonFocused(page, focus)
    ensures r.None? <==> !ButtonFocused(page, focus) && (Incomplete(c) || !Found(loc) || !c.autoFillEnabled)
  {
    var manual := ButtonFocused(page, focus);
    if Incomplete(c) then
      if manual then Some(Error) else None
    else
      var filled := |FillWrites(loc, c)| > 0;
      if filled && (manual || c.autoFillEnabled) then Some(Success)
      else if !filled && manual then Some(Warning)
      else None
  }

  /** On a page where no element of its own carries the button's id, the two readings differ in
      exactly one situation: a click on the button, with auto-fill switched off, that does fill
      something. As written no notice is shown then; as intended the success notice is. */
  lemma AsWrittenLosesManualSuccess(page: Page, loc: Located, focus: Focus, c: Credentials)
    requires LocatedIn(page, loc)
    requires forall i | 0 <= i < |page| :: page[i].id != Some(ButtonId)
    ensures NoticeAsWritten(page, loc, focus, c) != NoticeIntended(page, loc, focus, c) <==>
              !Incomplete(c) && Found(loc) && focus == OnButton && !c.autoFillEnabled
    ensures !Incomplete(c) && Found(loc) ==> (NoticeAsWritten(page, loc, focus, c) == Some(Success) <==> c.autoFillEnabled)
  {
    if !Incomplete(c) && Found(loc) {
      var ws := FillWrites(loc, c);
      assert !ButtonFocused(page, FocusAfter(focus, ws));
    }
  }

  /** A page holding one `type="password"` input and nothing else. */
  const OnePasswordPage: Page := [Element("INPUT", None, Some("password"), None, None, None, None, None, "", [], [])]

  /** Any page with a `type="password"` input has something to fill: if the tiers before the
      type tier found nothing, the type tier collects that input, and later tiers only append. */
  lemma SinglePasswordPageFound(page: Page, p: nat)
    requires WellFormed(page) && p < |page|
    requires Matches(page[p], TypeIs("password"))
    ensures Found(Locate(page))
  {
    var f3 := SecondTypeStage(page, VerifyStage(page, AutomationStage(page)));
    EarlierTiersKeepPositions(page);
    assert |FirstTypeStage(page, f3)| > 0 by {
      if |f3| == 0 {
        assert p in FirstTypeStage(page, f3);
      }
    }
  }

  /** `OnePasswordPage` is such a page, and none of its elements carries the button's id. */
  lemma OnePasswordPageQualifies()
    ensures WellFormed(OnePasswordPage) && Matches(OnePasswordPage[0], TypeIs("password"))
    ensures forall j :: 0 <= j < |OnePasswordPage| && j != 0 ==> !Matches(OnePasswordPage[j], TypeIs("password"))
    ensures forall j :: 0 <= j < |OnePasswordPage| ==>
              !Matches(OnePasswordPage[j], AutomationIdContains("password")) &&
              OnePasswordPage[j].automationId != Some("verifyPassword") &&
              OnePasswordPage[j].automationId != Some("confirmPassword") &&
              !IsLabel(OnePasswordPage[j])
    ensures forall i | 0 <= i < |OnePasswordPage| :: OnePasswordPage[i].id != Some(ButtonId)
  {
  }

  /** A click on the button that fills something, with complete credentials and auto-fill off
      (for example on `OnePasswordPage`): as written no notice appears, as intended the success
      notice does. */
  lemma ManualClickShowsNoNotice(page: Page, c: Credentials)
    requires WellFormed(page) && Found(Locate(page))
    requires forall i | 0 <= i < |page| :: page[i].id != Some(ButtonId)
    requires !Incomplete(c) && !c.autoFillEnabled
    ensures NoticeAsWritten(page, Locate(page), OnButton, c) == None
    ensures NoticeIntended(page, Locate(page), OnButton, c) == Some(Success)
  {
    AsWrittenLosesManualSuccess(page, Locate(page), OnButton, c);
  }

  /** The concrete case: on `OnePasswordPage`, a click on the button with complete credentials and
      auto-fill off fills the password field but, as written, shows no notice. */
  lemma OnePasswordPageManualClick(page: Page, c: Credentials)
    requires page == OnePasswordPage
    requires !Incomplete(c) && !c.autoFillEnabled
    ensures Found(Locate(page))
    ensures NoticeAsWritten(page, Locate(page), OnButton, c) == None
    ensures NoticeIntended(page, Locate(page), OnButton, c) == Some(Success)
  {
    OnePasswordPageQualifies();
    SinglePasswordPageFound(page, 0);
    ManualClickShowsNoNotice(page, c);
  }

  /** The fill assignment: with incomplete credentials nothing changes; otherwise the first two
      password fields hold the password, the email input holds the email unless it is also one of
      those two (the password is written after the email), and every other input keeps its value. */
  lemma FillAssignment(values: seq<string>, loc: Located, c: Credentials)
    ensures var r := ApplyWrites(values, FillWrites(loc, c));
            Incomplete(c) ==> r == values
    ensures var r := ApplyWrites(values, FillWrites(loc, c));
            !Incomplete(c) ==> forall j | 0 <= j < |values| ::
              r[j] == (if PasswordTarget(loc.passwords, j) then c.password
                       else if loc.email == Some(j) then c.email
                       else values[j])
  {
    if !Incomplete(c) {
      CompleteAssignment(values, loc, c);
    }
  }

  /** The fill assignment with complete credentials. */
  lemma CompleteAssignment(values: seq<string>, loc: Located, c: Credentials)
    requires !Incomplete(c)
    ensures var r := ApplyWrites(values, FillWrites(loc, c));
            forall j | 0 <= j < |values| ::
              r[j] == (if PasswordTarget(loc.passwords, j) then c.password
                       else if loc.email == Some(j) then c.email
                       else values[j])
  {
    var ws := FillWrites(loc, c);
    var e := loc.email;
    var p := loc.passwords;
    var a := if e.Some? then [Write(e.value, c.email)] else [];
    var b := if |p| >= 1 then [Write(p[0], c.password)] else [];
    var d := if |p| >= 2 then [Write(p[1], c.password)] else [];
    assert ws == a + (b + d);
    assert ws == a + b + d;
    ApplyWritesPointwise(values, ws);
    forall j | 0 <= j < |values|
      ensures LastWriteTo(ws, j) == (if PasswordTarget(p, j) then Some(c.password)
                                     else if e == Some(j) then Some(c.email) else None)
    {
      LastWriteToCases(a, b, d, j);
    }
  }

  lemma LastWriteToCases(a: seq<Write>, b: seq<Write>, d: seq<Write>, j: nat)
    requires |a| <= 1 && |b| <= 1 && |d| <= 1
    ensures LastWriteTo(a + b + d, j) ==
              (if |d| == 1 && d[0].target == j then Some(d[0].value)
               else if |b| == 1 && b[0].target == j then Some(b[0].value)
               else if |a| == 1 && a[0].target == j then Some(a[0].value)
               else None)
  {
    var ab := a + b;
    assert (ab + d)[..|ab|] == ab;
    assert ab[..|a|] == a;
    if |a| == 1 {
      assert a[..0] == [];
    }
  }

  /** Password fields after the second one are never filled, and nor is anything that is not an
      input: `findPasswordFields` may return more than two fields, but only two get a value. */
  lemma LaterFieldsUntouched(page: Page, values: seq<string>, loc: Located, c: Credentials)
    requires LocatedIn(page, loc) && |values| == |page|
    ensures forall k | 0 <= k < |loc.passwords| :: loc.passwords[k] < |values|
    ensures var r := ApplyWrites(values, FillWrites(loc, c));
            var p := loc.passwords;
            (forall k | 2 <= k < |p| && loc.email != Some(p[k]) :: r[p[k]] == values[p[k]]) &&
            (forall j | 0 <= j < |page| && !IsInput(page[j]) :: r[j] == values[j])
  {
    FillAssignment(values, loc, c);
    var p := loc.passwords;
    assert forall k | 0 <= k < |p| :: p[k] in p;
    assert forall k | 2 <= k < |p| :: !PasswordTarget(p, p[k]);
    forall j | 0 <= j < |page| && !IsInput(page[j]) ensures !PasswordTarget(p, j) && loc.email != Some(j) {
      if |p| >= 1 { assert p[0] in p; }
      if |p| >= 2 { assert p[1] in p; }
    }
  }
}

=== FILE: host.dfy ===
/** The page detector: is the current hostname one of the recruiting platform's? */
module Host {
  import opened Text

  /** The allow-list of domain substrings, in the order the source tries them. */
  const WorkdayDomains: seq<string> := ["workday.com", "myworkday.com", "myworkdayjobs.com"]

  /** `isWorkdayPage`: some allow-listed domain occurs in the hostname. Because
      "myworkday.com" contains "workday.com", two of the three entries suffice. */
  function IsWorkdayPage(hostname: string): (r: bool)
    ensures r <==> Contains(hostname, "workday.com") || Contains(hostname, "myworkdayjobs.com")
  {
    MyWorkdayIsWorkday(hostname);
    exists d | d in WorkdayDomains :: Contains(hostname, d)
  }

  /** A hostname that contains "myworkday.com" contains "workday.com". */
  lemma MyWorkdayIsWorkday(hostname: string)
    ensures Contains(hostname, "myworkday.com") ==> Contains(hostname, "workday.com")
  {
    if Contains(hostname, "myworkday.com") {
      assert OccursAt("myworkday.com", "workday.com", 2);
      ContainsTransitive(hostname, "myworkday.com", "workday.com");
    }
  }
}

=== FILE: options.dfy ===
/** An optional value: the model's stand-in for a DOM lookup that may return `null`
    and for a storage read that may find nothing. */
module Options {

  datatype Option<+T> = None | Some(value: T)
}

=== FILE: password_locator.dfy ===
/** `findPasswordFields`: collects the password and confirmation inputs by appending
    across tiers (automation ids, `type="password"`, name/id/placeholder, label text),
    never twice the same element. The method follows the source's loops; the function
    `PasswordFields` is its specification, built from one function per tier. */
module PasswordLocator {
  import opened Options
  import opened Text
  import opened Dom
  import opened FieldLocator

  /** Label phrases that announce the confirmation field. */
  const VerifyPhrases: seq<string> := ["verify new password", "confirm password", "verify password", "re-enter password"]

  /** Label phrases that announce a password field. */
  const PasswordPhrases: seq<string> := ["password", "create password"]

  /** A `forEach` that pushes every candidate that is an input (`instanceof HTMLInputElement`). */
  function InputsOf(page: Page, cands: seq<nat>): (r: seq<nat>)
    requires Below(cands, |page|)
    ensures AllInputs(page, r)
    ensures forall x :: x in r ==> x in cands
  {
    if cands == [] then []
    else
      assert forall x :: x in cands[1..] ==> x in cands;
      (if IsInput(page[cands[0]]) then [cands[0]] else []) + InputsOf(page, cands[1..])
  }

  /** Every candidate that is an input is kept. */
  lemma {:induction false} InputsOfKeepsInputs(page: Page, cands: seq<nat>)
    requires Below(cands, |page|)
    ensures forall k :: 0 <= k < |cands| && IsInput(page[cands[k]]) ==> cands[k] in InputsOf(page, cands)
  {
    if cands != [] {
      InputsOfKeepsInputs(page, cands[1..]);
      assert forall k :: 1 <= k < |cands| ==> cands[k] == cands[1..][k - 1];
    }
  }

  /** The filter keeps the candidates' order: filtering a concatenation concatenates the filtered parts. */
  lemma {:induction false} InputsOfConcat(page: Page, a: seq<nat>, b: seq<nat>)
    requires Below(a, |page|) && Below(b, |page|)
    ensures Below(a + b, |page|)
    ensures InputsOf(page, a + b) == InputsOf(page, a) + InputsOf(page, b)
  {
    if a == [] {
      assert a + b == b;
    } else {
      assert (a + b)[0] == a[0];
      assert (a + b)[1..] == a[1..] + b;
      InputsOfConcat(page, a[1..], b);
      AppendAssociative(if IsInput(page[a[0]]) then [a[0]] else [], InputsOf(page, a[1..]), InputsOf(page, b));
    }
  }

  /** Filtering keeps document order. */
  lemma {:induction false} InputsOfIncreasing(page: Page, cands: seq<nat>)
    requires Below(cands, |page|) && Increasing(cands)
    ensures Increasing(InputsOf(page, cands))
  {
    if cands != [] {
      InputsOfIncreasing(page, cands[1..]);
      var rest := InputsOf(page, cands[1..]);
      assert forall x :: x in cands[1..] ==> cands[0] < x;
      assert forall b :: 0 <= b < |rest| ==> rest[b] in rest;
    }
  }

  /** Filtering a list of inputs keeps all of it: the `instanceof` check never fires after an `input` selector. */
  lemma {:induction false} InputsOfAllInputs(page: Page, cands: seq<nat>)
    requires Below(cands, |page|)
    requires forall k :: 0 <= k < |cands| ==> IsInput(page[cands[k]])
    ensures InputsOf(page, cands) == cands
  {
    if cands != [] {
      InputsOfAllInputs(page, cands[1..]);
    }
  }

  /** A `forEach` that pushes every candidate that is an input and not yet collected (`!fields.includes`). */
  function AppendNewInputs(page: Page, fields: seq<nat>, cands: seq<nat>): (r: seq<nat>)
    requires Below(cands, |page|)
    decreases |cands|
    ensures fields <= r
    ensures forall x :: x in r ==> x in fields || x in cands
    ensures forall k :: 0 <= k < |cands| && IsInput(page[cands[k]]) ==> cands[k] in r
    ensures Distinct(fields) ==> Distinct(r)
    ensures AllInputs(page, fields) ==> AllInputs(page, r)
  {
    if cands == [] then fields
    else
      var c := cands[0];
      var pushed := IsInput(page[c]) && c !in fields;
      var next := if pushed then PushKeeps(page, fields, c); fields + [c] else fields;
      var r := AppendNewInputs(page, next, cands[1..]);
      PrefixMembers(next, r);
      assert forall k :: 1 <= k < |cands| ==> cands[k] == cands[1..][k - 1];
      assert forall x :: x in cands[1..] ==> x in cands;
      r
  }

  /** Every member of a prefix is a member of the whole. */
  lemma PrefixMembers(a: seq<nat>, b: seq<nat>)
    requires a <= b
    ensures forall x :: x in a ==> x in b
  {
    forall x | x in a ensures x in b {
      var k :| 0 <= k < |a| && a[k] == x;
      assert b[k] == x;
    }
  }

  /** Pushing a new input keeps the list free of repeats and made of inputs. */
  lemma PushKeeps(page: Page, fields: seq<nat>, c: nat)
    requires c < |page| && IsInput(page[c]) && c !in fields
    ensures fields <= fields + [c]
    ensures forall x :: x in fields + [c] <==> x in fields || x == c
    ensures Distinct(fields) ==> Distinct(fields + [c])
    ensures AllInputs(page, fields) ==> AllInputs(page, fields + [c])
  {
    assert forall a :: 0 <= a < |fields| ==> (fields + [c])[a] == fields[a] && fields[a] in fields;
  }

  /** A label's text, lower-cased, contains one of the phrases. */
  predicate MentionsPhrase(e: Element, phrases: seq<string>): (b: bool)
    ensures b ==> exists p | p in phrases :: |p| <= |e.text|
    ensures "" in phrases ==> b
  {
    exists p | p in phrases :: Contains(Lower(e.text), p)
  }

  /** `label.nextElementSibling?.querySelector('input') || label.nextElementSibling || label.querySelector('input')`:
      when the label has a next sibling, the label's own inputs are never consulted. */
  function NearbyCandidate(page: Page, l: nat): (r: Option<nat>)
    requires WellFormed(page) && l < |page|
    ensures r.Some? ==> r.value < |page|
    ensures |page[l].nextSiblings| > 0 ==> r == Or(NestedInput(page, page[l].nextSiblings[0]), Some(page[l].nextSiblings[0]))
    ensures |page[l].nextSiblings| == 0 ==> r == NestedInput(page, l)
  {
    assert RefsWithin(page[l], |page|);
    var siblings := page[l].nextSiblings;
    if |siblings| > 0 then Or(NestedInput(page, siblings[0]), Some(siblings[0]))
    else NestedInput(page, l)
  }

  /** What one label contributes in a label tier: its `for` target when that is a new input,
      else the nearby candidate when that is a new input, else nothing. */
  function LabelCandidate(page: Page, l: nat, phrases: seq<string>, fields: seq<nat>): (r: Option<nat>)
    requires WellFormed(page) && l < |page|
    ensures r.Some? ==> r.value < |page| && IsInput(page[r.value]) && r.value !in fields
    ensures r.Some? ==> MentionsPhrase(page[l], phrases)
    ensures var t := ForTarget(page, l);
            MentionsPhrase(page[l], phrases) && t.Some? && IsInput(page[t.value]) && t.value !in fields ==> r == t
    ensures var t := ForTarget(page, l);
            var n := NearbyCandidate(page, l);
            MentionsPhrase(page[l], phrases) && !(t.Some? && IsInput(page[t.value]) && t.value !in fields) ==>
              r == (if n.Some? && IsInput(page[n.value]) && n.value !in fields then n else None)
  {
    if !MentionsPhrase(page[l], phrases) then None
    else
      var target := ForTarget(page, l);
      if target.Some? && IsInput(page[target.value]) && target.value !in fields then target
      else
        var nearby := NearbyCandidate(page, l);
        if nearby.Some? && IsInput(page[nearby.value]) && nearby.value !in fields then nearby else None
  }

  /** The position of the first label that contributes, or |labels|. */
  function LabelPickIndex(page: Page, labels: seq<nat>, phrases: seq<string>, fields: seq<nat>): (k: nat)
    requires WellFormed(page) && Below(labels, |page|)
    ensures k <= |labels|
    ensures forall i :: 0 <= i < k ==> LabelCandidate(page, labels[i], phrases, fields).None?
    ensures k < |labels| ==> LabelCandidate(page, labels[k], phrases, fields).Some?
  {
    if labels == [] then 0
    else if LabelCandidate(page, labels[0], phrases, fields).Some? then 0
    else 1 + LabelPickIndex(page, labels[1..], phrases, fields)
  }

  /** One label tier (`for (const label of labels)` with `break` after the first push): at most one element is added. */
  function AddFromLabels(page: Page, labels: seq<nat>, phrases: seq<string>, fields: seq<nat>): (r: seq<nat>)
    requires WellFormed(page) && Below(labels, |page|)
    ensures fields <= r && |r| <= |fields| + 1
    ensures |r| == |fields| + 1 <==> exists k :: 0 <= k < |labels| && LabelCandidate(page, labels[k], phrases, fields).Some?
    ensures Distinct(fields) ==> Distinct(r)
    ensures AllInputs(page, fields) ==> AllInputs(page, r)
  {
    var k := LabelPickIndex(page, labels, phrases, fields);
    if k < |labels| then fields + [LabelCandidate(page, labels[k], phrases, fields).value] else fields
  }

  /** Lines 222-228: every input whose automation id contains "password" (case-sensitive), in document order. */
  function AutomationStage(page: Page): (r: seq<nat>)
    ensures Distinct(r) && AllInputs(page, r)
    ensures Increasing(r)
    ensures forall i: nat :: i in r <==> i < |page| && Matches(page[i], AutomationIdContains("password"))
  {
    var found := QuerySelectorAll(page, [AutomationIdContains("password")]);
    assert forall i: nat :: i < |page| ==>
      (MatchesList(page[i], [AutomationIdContains("password")]) <==> Matches(page[i], AutomationIdContains("password"))) by {
      forall i: nat | i < |page| ensures MatchesList(page[i], [AutomationIdContains("password")]) <==> Matches(page[i], AutomationIdContains("password")) {
        assert AutomationIdContains("password") in [AutomationIdContains("password")];
      }
    }
    assert forall k :: 0 <= k < |found| ==> found[k] in found;
    InputsOfAllInputs(page, found);
    InputsOf(page, found)
  }

  /** Lines 231-232: the first input with automation id exactly "verifyPassword", else exactly "confirmPassword". */
  function VerifyAutomationField(page: Page): (r: Option<nat>)
    ensures r.Some? ==> r.value < |page| && IsInput(page[r.value])
    ensures r.Some? ==> page[r.value].automationId == Some("verifyPassword") ||
                        page[r.value].automationId == Some("confirmPassword")
    ensures r.None? <==> forall j :: 0 <= j < |page| && IsInput(page[j]) ==>
                           page[j].automationId != Some("verifyPassword") && page[j].automationId != Some("confirmPassword")
  {
    var verify := QuerySelector(page, [AutomationIdIs("verifyPassword")]);
    var confirm := QuerySelector(page, [AutomationIdIs("confirmPassword")]);
    assert forall j :: 0 <= j < |page| ==>
      (MatchesList(page[j], [AutomationIdIs("verifyPassword")]) <==> Matches(page[j], AutomationIdIs("verifyPassword"))) &&
      (MatchesList(page[j], [AutomationIdIs("confirmPassword")]) <==> Matches(page[j], AutomationIdIs("confirmPassword"))) by {
      forall j | 0 <= j < |page| ensures
        (MatchesList(page[j], [AutomationIdIs("verifyPassword")]) <==> Matches(page[j], AutomationIdIs("verifyPassword"))) &&
        (MatchesList(page[j], [AutomationIdIs("confirmPassword")]) <==> Matches(page[j], AutomationIdIs("confirmPassword"))) {
        MatchesSingle(page[j], AutomationIdIs("verifyPassword"));
        MatchesSingle(page[j], AutomationIdIs("confirmPassword"));
      }
    }
    Or(verify, confirm)
  }

  /** Lines 231-232: the `||` prefers the first `verifyPassword` input; the first `confirmPassword`
      input is taken only when there is no `verifyPassword` input. */
  lemma VerifyPasswordPreferred(page: Page)
    ensures var r := VerifyAutomationField(page);
            (exists j :: 0 <= j < |page| && Matches(page[j], AutomationIdIs("verifyPassword"))) ==>
              r.Some? && Matches(page[r.value], AutomationIdIs("verifyPassword")) &&
              forall j :: 0 <= j < r.value ==> !Matches(page[j], AutomationIdIs("verifyPassword"))
    ensures var r := VerifyAutomationField(page);
            (forall j :: 0 <= j < |page| ==> !Matches(page[j], AutomationIdIs("verifyPassword"))) && r.Some? ==>
              Matches(page[r.value], AutomationIdIs("confirmPassword")) &&
              forall j :: 0 <= j < r.value ==> !Matches(page[j], AutomationIdIs("confirmPassword"))
  {
    forall j | 0 <= j < |page|
      ensures MatchesList(page[j], [AutomationIdIs("verifyPassword")]) <==> Matches(page[j], AutomationIdIs("verifyPassword"))
      ensures MatchesList(page[j], [AutomationIdIs("confirmPassword")]) <==> Matches(page[j], AutomationIdIs("confirmPassword"))
    {
      MatchesSingle(page[j], AutomationIdIs("verifyPassword"));
      MatchesSingle(page[j], AutomationIdIs("confirmPassword"));
    }
  }

  /** Lines 234-237: the verification field is appended unless already collected. */
  function VerifyStage(page: Page, fields: seq<nat>): (r: seq<nat>)
    ensures fields <= r && |r| <= |fields| + 1
    ensures |r| == |fields| + 1 <==> VerifyAutomationField(page).Some? && VerifyAutomationField(page).value !in fields
    ensures |r| == |fields| + 1 ==> r[|fields|] == VerifyAutomationField(page).value
    ensures Distinct(fields) ==> Distinct(r)
    ensures AllInputs(page, fields) ==> AllInputs(page, r)
  {
    var v := VerifyAutomationField(page);
    if v.Some? && v.value !in fields then fields + [v.value] else fields
  }

  /** Lines 240-249: with exactly one field so far, every new `type="password"` input is appended. */
  function SecondTypeStage(page: Page, fields: seq<nat>): (r: seq<nat>)
    ensures |fields| != 1 ==> r == fields
    ensures fields <= r
    ensures Distinct(fields) ==> Distinct(r)
    ensures AllInputs(page, fields) ==> AllInputs(page, r)
  {
    if |fields| == 1 then AppendNewInputs(page, fields, QuerySelectorAll(page, [TypeIs("password")])) else fields
  }

  /** Lines 252-260: with no field so far, every `type="password"` input is appended, without a duplicate check. */
  function FirstTypeStage(page: Page, fields: seq<nat>): (r: seq<nat>)
    ensures |fields| != 0 ==> r == fields
    ensures |fields| == 0 ==> Increasing(r) && forall i: nat :: i in r <==> i < |page| && Matches(page[i], TypeIs("password"))
    ensures fields <= r
    ensures Distinct(fields) ==> Distinct(r)
    ensures AllInputs(page, fields) ==> AllInputs(page, r)
  {
    if |fields| == 0 then
      var found := QuerySelectorAll(page, [TypeIs("password")]);
      TypePasswordInputs(page);
      assert fields + InputsOf(page, found) == found;
      fields + InputsOf(page, found)
    else fields
  }

  /** The `type="password"` matches are inputs, so the `instanceof` filter keeps all of them. */
  lemma TypePasswordInputs(page: Page)
    ensures var found := QuerySelectorAll(page, [TypeIs("password")]);
            InputsOf(page, found) == found &&
            forall i: nat :: i in found <==> i < |page| && Matches(page[i], TypeIs("password"))
  {
    var found := QuerySelectorAll(page, [TypeIs("password")]);
    forall i: nat | i < |page| ensures MatchesList(page[i], [TypeIs("password")]) <==> Matches(page[i], TypeIs("password")) {
      MatchesSingle(page[i], TypeIs("password"));
    }
    forall k | 0 <= k < |found| ensures IsInput(page[found[k]]) {
      assert found[k] in found;
    }
    InputsOfAllInputs(page, found);
  }

  /** The selector list of line 265. */
  const NamedSelectors: seq<Selector> :=
    [NameContainsI("password"), IdContainsI("password"), PlaceholderContainsI("password")]

  /** Lines 263-273: with no field so far, every input whose name, id or placeholder contains
      "password" in any case is appended. */
  function NamedStage(page: Page, fields: seq<nat>): (r: seq<nat>)
    ensures |fields| != 0 ==> r == fields
    ensures fields <= r
    ensures Distinct(fields) ==> Distinct(r)
    ensures AllInputs(page, fields) ==> AllInputs(page, r)
  {
    if |fields| == 0 then AppendNewInputs(page, fields, QuerySelectorAll(page, NamedSelectors)) else fields
  }

  /** Lines 276-340: with fewer than two fields, the verify-label tier and then, if still fewer
      than two, the password-label tier; each adds at most one element. */
  function LabelStage(page: Page, fields: seq<nat>): (r: seq<nat>)
    requires WellFormed(page)
    ensures |fields| >= 2 ==> r == fields
    ensures |fields| < 2 ==> |r| <= 2
    ensures fields <= r && |r| <= |fields| + 2
    ensures Distinct(fields) ==> Distinct(r)
    ensures AllInputs(page, fields) ==> AllInputs(page, r)
  {
    if |fields| < 2 then
      var labels := Labels(page);
      var afterVerify := AddFromLabels(page, labels, VerifyPhrases, fields);
      if |afterVerify| < 2 then AddFromLabels(page, labels, PasswordPhrases, afterVerify) else afterVerify
    else fields
  }

  /** What `findPasswordFields` returns: distinct input elements. */
  function PasswordFields(page: Page): (r: seq<nat>)
    requires WellFormed(page)
    ensures Distinct(r) && AllInputs(page, r)
  {
    LabelStage(page, NamedStage(page, FirstTypeStage(page, SecondTypeStage(page, VerifyStage(page, AutomationStage(page))))))
  }

  /** The `forEach` loops that push every input (lines 223-228 and 254-259). */
  method PushInputs(page: Page, fields: seq<nat>, cands: seq<nat>) returns (r: seq<nat>)
    requires Below(cands, |page|)
    ensures r == fields + InputsOf(page, cands)
  {
    r := fields;
    var i := 0;
    while i < |cands|
      invariant 0 <= i <= |cands|
      invariant r + InputsOf(page, cands[i..]) == fields + InputsOf(page, cands)
    {
      InputsOfStep(page, r, cands, i);
      if IsInput(page[cands[i]]) {
        r := r + [cands[i]];
      }
      i := i + 1;
    }
  }

  /** One step of that loop: the candidate at `i` is pushed exactly when it is an input. */
  lemma InputsOfStep(page: Page, r: seq<nat>, cands: seq<nat>, i: nat)
    requires Below(cands, |page|) && i < |cands|
    ensures r + InputsOf(page, cands[i..]) ==
              (if IsInput(page[cands[i]]) then r + [cands[i]] else r) + InputsOf(page, cands[i + 1..])
  {
    var head := if IsInput(page[cands[i]]) then [cands[i]] else [];
    var rest := InputsOf(page, cands[i + 1..]);
    InputsOfUnfold(page, cands, i);
    AppendAssociative(r, head, rest);
  }

  /** `InputsOf` on the suffix from `i` takes its head, then the suffix from `i + 1`. */
  lemma InputsOfUnfold(page: Page, cands: seq<nat>, i: nat)
    requires Below(cands, |page|) && i < |cands|
    ensures InputsOf(page, cands[i..]) ==
              (if IsInput(page[cands[i]]) then [cands[i]] else []) + InputsOf(page, cands[i + 1..])
  {
    var s := cands[i..];
    assert s[0] == cands[i] && s[1..] == cands[i + 1..];
  }

  /** The `forEach` loops that push every input not yet collected (lines 243-248 and 267-272). */
  method PushNewInputs(page: Page, fields: seq<nat>, cands: seq<nat>) returns (r: seq<nat>)
    requires Below(cands, |page|)
    ensures r == AppendNewInputs(page, fields, cands)
  {
    r := fields;
    var i := 0;
    while i < |cands|
      invariant 0 <= i <= |cands|
      invariant AppendNewInputs(page, r, cands[i..]) == AppendNewInputs(page, fields, cands)
    {
      assert cands[i..][1..] == cands[i + 1..];
      if IsInput(page[cands[i]]) && cands[i] !in r {
        r := r + [cands[i]];
      }
      i := i + 1;
    }
  }

  /** One label loop (lines 284-309 and 313-338): push the first contribution and `break`. */
  method PushFromLabels(page: Page, labels: seq<nat>, phrases: seq<string>, fields: seq<nat>) returns (r: seq<nat>)
    requires WellFormed(page) && Below(labels, |page|)
    ensures r == AddFromLabels(page, labels, phrases, fields)
  {
    r := fields;
    for i := 0 to |labels|
      invariant r == fields
      invariant forall k :: 0 <= k < i ==> LabelCandidate(page, labels[k], phrases, fields).None?
    {
      var input := TryLabel(page, labels[i], phrases, r);
      if input.Some? {
        r := r + [input.value];
        LabelPickAt(page, labels, phrases, fields, i);
        return;
      }
    }
    LabelPickAt(page, labels, phrases, fields, |labels|);
  }

  /** One pass of the loop body (lines 285-307 and 314-336): the `for` target, else the nearby
      candidate, when the label mentions a phrase and the input is new. */
  method TryLabel(page: Page, l: nat, phrases: seq<string>, fields: seq<nat>) returns (input: Option<nat>)
    requires WellFormed(page) && l < |page|
    ensures input == LabelCandidate(page, l, phrases, fields)
  {
    input := None;
    if MentionsPhrase(page[l], phrases) {
      var forTarget := ForTarget(page, l);
      if forTarget.Some? && IsInput(page[forTarget.value]) && forTarget.value !in fields {
        input := forTarget;
        return;
      }
      var nearby := NearbyCandidate(page, l);
      if nearby.Some? && IsInput(page[nearby.value]) && nearby.value !in fields {
        input := nearby;
      }
    }
  }

  /** The label tier picks the first label that contributes. */
  lemma LabelPickAt(page: Page, labels: seq<nat>, phrases: seq<string>, fields: seq<nat>, i: nat)
    requires WellFormed(page) && Below(labels, |page|) && i <= |labels|
    requires forall k :: 0 <= k < i ==> LabelCandidate(page, labels[k], phrases, fields).None?
    requires i < |labels| ==> LabelCandidate(page, labels[i], phrases, fields).Some?
    ensures AddFromLabels(page, labels, phrases, fields) ==
              if i < |labels| then fields + [LabelCandidate(page, labels[i], phrases, fields).value] else fields
  {
    var k := LabelPickIndex(page, labels, phrases, fields);
    assert k == i;
  }

  /** `findPasswordFields()`, tier by tier as the source runs it. */
  method FindPasswordFields(page: Page) returns (fields: seq<nat>)
    requires WellFormed(page)
    ensures fields == PasswordFields(page)
  {
    fields := CollectAutomation(page);
    fields := CollectVerify(page, fields);
    fields := CollectSecondType(page, fields);
    fields := CollectFirstType(page, fields);
    fields := CollectNamed(page, fields);
    fields := CollectLabels(page, fields);
  }

  /** Lines 220-228. */
  method CollectAutomation(page: Page) returns (fields: seq<nat>)
    ensures fields == AutomationStage(page)
  {
    fields := [];
    var automationFields := QuerySelectorAll(page, [AutomationIdContains("password")]);
    fields := PushInputs(page, fields, automationFields);
    assert [] + InputsOf(page, automationFields) == InputsOf(page, automationFields);
  }

  /** Lines 231-237. */
  method CollectVerify(page: Page, fields0: seq<nat>) returns (fields: seq<nat>)
    ensures fields == VerifyStage(page, fields0)
  {
    fields := fields0;
    var verifyPasswordField := QuerySelector(page, [AutomationIdIs("verifyPassword")]);
    if verifyPasswordField.None? {
      verifyPasswordField := QuerySelector(page, [AutomationIdIs("confirmPassword")]);
    }
    assert verifyPasswordField == VerifyAutomationField(page);
    if verifyPasswordField.Some? && verifyPasswordField.value !in fields {
      fields := fields + [verifyPasswordField.value];
    }
  }

  /** Lines 240-249. */
  method CollectSecondType(page: Page, fields0: seq<nat>) returns (fields: seq<nat>)
    ensures fields == SecondTypeStage(page, fields0)
  {
    fields := fields0;
    if |fields| == 1 {
      var passwordFields := QuerySelectorAll(page, [TypeIs("password")]);
      fields := PushNewInputs(page, fields, passwordFields);
    }
  }

  /** Lines 252-260. */
  method CollectFirstType(page: Page, fields0: seq<nat>) returns (fields: seq<nat>)
    ensures fields == FirstTypeStage(page, fields0)
  {
    fields := fields0;
    if |fields| == 0 {
      var passwordFields := QuerySelectorAll(page, [TypeIs("password")]);
      fields := PushInputs(page, fields, passwordFields);
    }
  }

  /** Lines 263-273. */
  method CollectNamed(page: Page, fields0: seq<nat>) returns (fields: seq<nat>)
    ensures fields == NamedStage(page, fields0)
  {
    fields := fields0;
    if |fields| == 0 {
      var otherFields := QuerySelectorAll(page, NamedSelectors);
      fields := PushNewInputs(page, fields, otherFields);
    }
  }

  /** Lines 276-340. */
  method CollectLabels(page: Page, fields0: seq<nat>) returns (fields: seq<nat>)
    requires WellFormed(page)
    ensures fields == LabelStage(page, fields0)
  {
    fields := fields0;
    if |fields| < 2 {
      var labels := Labels(page);
      fields := PushFromLabels(page, labels, VerifyPhrases, fields);
      if |fields| < 2 {
        fields := PushFromLabels(page, labels, PasswordPhrases, fields);
      }
    }
  }

  /** The list only grows: what an earlier tier collected keeps its position. */
  lemma EarlierTiersKeepPositions(page: Page)
    requires WellFormed(page)
    ensures var f1 := AutomationStage(page);
            var f2 := VerifyStage(page, f1);
            var f3 := SecondTypeStage(page, f2);
            var f4 := FirstTypeStage(page, f3);
            var f5 := NamedStage(page, f4);
            f1 <= f2 <= f3 <= f4 <= f5 <= PasswordFields(page)
  {
  }

  /** There is no upper bound: when neither automation tier finds anything, every
      `type="password"` input comes back, in document order, however many there are. */
  lemma TypeTierUncapped(page: Page)
    requires WellFormed(page)
    requires AutomationStage(page) == [] && VerifyAutomationField(page).None?
    ensures QuerySelectorAll(page, [TypeIs("password")]) <= PasswordFields(page)
  {
    TypePasswordInputs(page);
    assert FirstTypeStage(page, []) == QuerySelectorAll(page, [TypeIs("password")]);
  }

  /** When only labels identify the password fields, the verify-label tier runs first: a
      label such as "Confirm Password" contributes the first field, ahead of the input a plain
      "Password" label names. */
  lemma VerifyLabelTierFirst(page: Page)
    requires WellFormed(page)
    requires NamedStage(page, FirstTypeStage(page, SecondTypeStage(page, VerifyStage(page, AutomationStage(page))))) == []
    requires exists k :: 0 <= k < |Labels(page)| && LabelCandidate(page, Labels(page)[k], VerifyPhrases, []).Some?
    ensures |AddFromLabels(page, Labels(page), VerifyPhrases, [])| == 1
    ensures |PasswordFields(page)| >= 1 && PasswordFields(page)[0] == AddFromLabels(page, Labels(page), VerifyPhrases, [])[0]
  {
    var first := AddFromLabels(page, Labels(page), VerifyPhrases, []);
    assert LabelStage(page, []) == AddFromLabels(page, Labels(page), PasswordPhrases, first);
  }

  /** An increasing list whose only member is p is [p]. */
  lemma {:induction false} OnlyMember(xs: seq<nat>, p: nat)
    requires Increasing(xs)
    requires forall x: nat :: x in xs <==> x == p
    ensures xs == [p]
  {
    assert p in xs;
    assert xs[0] in xs && xs[|xs| - 1] in xs;
  }

  /** A page whose only password hint is one `type="password"` input yields exactly that input.
      Other labels, such as an "Email" label, may be present as long as none mentions a
      verification or password phrase. */
  lemma SinglePasswordInput(page: Page, p: nat)
    requires WellFormed(page) && p < |page|
    requires Matches(page[p], TypeIs("password"))
    requires forall j :: 0 <= j < |page| && j != p ==> !Matches(page[j], TypeIs("password"))
    requires forall j :: 0 <= j < |page| ==>
               !Matches(page[j], AutomationIdContains("password")) &&
               page[j].automationId != Some("verifyPassword") && page[j].automationId != Some("confirmPassword")
    requires forall j :: 0 <= j < |page| && IsLabel(page[j]) ==>
               !MentionsPhrase(page[j], VerifyPhrases) && !MentionsPhrase(page[j], PasswordPhrases)
    ensures PasswordFields(page) == [p]
  {
    NoAutomationHints(page);
    OnlyTypePassword(page, p);
    assert VerifyStage(page, []) == [] && SecondTypeStage(page, []) == [];
    assert NamedStage(page, [p]) == [p];
    QuietLabelsKeep(page, [p]);
  }

  /** Labels that mention no verification or password phrase add nothing. */
  lemma QuietLabelsKeep(page: Page, fields: seq<nat>)
    requires WellFormed(page)
    requires forall j :: 0 <= j < |page| && IsLabel(page[j]) ==>
               !MentionsPhrase(page[j], VerifyPhrases) && !MentionsPhrase(page[j], PasswordPhrases)
    ensures LabelStage(page, fields) == fields
  {
    var labels := Labels(page);
    forall k | 0 <= k < |labels| ensures LabelCandidate(page, labels[k], VerifyPhrases, fields).None? {
      assert labels[k] in labels;
    }
    forall k | 0 <= k < |labels| ensures LabelCandidate(page, labels[k], PasswordPhrases, fields).None? {
      assert labels[k] in labels;
    }
  }

  /** Without labels the label tiers add nothing. */
  lemma NoLabelsKeep(page: Page, fields: seq<nat>)
    requires WellFormed(page)
    requires forall j :: 0 <= j < |page| ==> !IsLabel(page[j])
    ensures LabelStage(page, fields) == fields
  {
    assert Labels(page) == [];
  }

  /** Without any automation-id hint both automation tiers come back empty. */
  lemma NoAutomationHints(page: Page)
    requires forall j :: 0 <= j < |page| ==>
               !Matches(page[j], AutomationIdContains("password")) &&
               page[j].automationId != Some("verifyPassword") && page[j].automationId != Some("confirmPassword")
    ensures AutomationStage(page) == [] && VerifyAutomationField(page).None?
  {
    assert forall j :: 0 <= j < |page| ==> !MatchesList(page[j], [AutomationIdIs("verifyPassword")]);
    assert forall j :: 0 <= j < |page| ==> !MatchesList(page[j], [AutomationIdIs("confirmPassword")]);
  }

  /** With one `type="password"` input the first type tier collects exactly it. */
  lemma OnlyTypePassword(page: Page, p: nat)
    requires p < |page|
    requires Matches(page[p], TypeIs("password"))
    requires forall j :: 0 <= j < |page| && j != p ==> !Matches(page[j], TypeIs("password"))
    ensures FirstTypeStage(page, []) == [p]
  {
    var found := QuerySelectorAll(page, [TypeIs("password")]);
    assert TypeIs("password") in [TypeIs("password")];
    OnlyMember(found, p);
    InputsOfAllInputs(page, found);
  }

  /** A label whose next sibling is neither an input nor holds one contributes nothing through
      proximity, even when an input sits inside the label itself: the `||` chain stops at the
      sibling, and the `instanceof` check then rejects it. */
  lemma NonInputSiblingShadowsLabel(page: Page, l: nat, phrases: seq<string>, fields: seq<nat>)
    requires WellFormed(page) && l < |page|
    requires |page[l].nextSiblings| > 0
    requires !IsInput(page[page[l].nextSiblings[0]]) && NestedInput(page, page[l].nextSiblings[0]).None?
    requires var t := ForTarget(page, l); !(t.Some? && IsInput(page[t.value]) && t.value !in fields)
    ensures NearbyCandidate(page, l) == Some(page[l].nextSiblings[0])
    ensures LabelCandidate(page, l, phrases, fields).None?
  {
  }

  /** "password" does not occur in "verifyPassword" or "confirmPassword": the substring match of
      line 222 is case-sensitive, so those ids are found only by the exact match of lines 231-232. */
  lemma MixedCaseIdsMissSubstringTier(e: Element)
    requires e.automationId == Some("verifyPassword") || e.automationId == Some("confirmPassword")
    ensures !Matches(e, AutomationIdContains("password"))
    ensures IsInput(e) ==> Matches(e, AutomationIdIs(e.automationId.value))
  {
    AbsentFirstCharacter("verifyPassword", "password");
    AbsentFirstCharacter("confirmPassword", "password");
  }
}

=== FILE: storage.dfy ===
/** The saved credentials: one record under the key "credentials" of an extension-scoped
    key-value store, with a default record for when nothing usable is stored. */
module Storage {
  import opened Options

  datatype Credentials = Credentials(email: string, password: string, autoFillEnabled: bool)

  /** The one key the extension uses. */
  const CredentialsKey: string := "credentials"

  /** The record used when nothing is stored: no email, no password, auto-fill on. */
  const DefaultCredentials: Credentials := Credentials("", "", true)

  /** The store: each key holds a value that may be absent (`null`/`undefined`). */
  type Store = map<string, Option<Credentials>>

  /** `getCredentials()`: `storage.get("credentials") || defaultCredentials`. */
  function GetCredentials(store: Store): (c: Credentials)
    ensures CredentialsKey in store && store[CredentialsKey].Some? ==> c == store[CredentialsKey].value
    ensures CredentialsKey !in store ==> c == DefaultCredentials
    ensures !(CredentialsKey in store && store[CredentialsKey].Some?) ==> c == DefaultCredentials
    ensures c.email != "" ==> CredentialsKey in store && store[CredentialsKey] == Some(c)
  {
    if CredentialsKey in store && store[CredentialsKey].Some? then store[CredentialsKey].value
    else DefaultCredentials
  }

  /** `hasCredentials()`: both the email and the password of the retrieved record are non-empty. */
  function HasCredentials(store: Store): (r: bool)
    ensures r ==> CredentialsKey in store && store[CredentialsKey].Some?
    ensures r <==> var c := GetCredentials(store); |c.email| > 0 && |c.password| > 0
  {
    var c := GetCredentials(store);
    c.email != "" && c.password != ""
  }

  /** An empty store holds no credentials. */
  lemma EmptyStoreHasNoCredentials()
    ensures GetCredentials(map[]) == DefaultCredentials
    ensures !HasCredentials(map[])
  {
  }

  /** The persistent store as the extension sees it. */
  class CredentialStore {
    var entries: Store

    constructor (initial: Store)
      ensures entries == initial
    {
      entries := initial;
    }

    /** `saveCredentials(c)`: writes the record under "credentials" and nothing else. */
    method SaveCredentials(c: Credentials)
      modifies this
      ensures entries == old(entries)[CredentialsKey := Some(c)]
      ensures GetCredentials(entries) == c
      ensures forall k :: k != CredentialsKey ==> (k in entries <==> k in old(entries))
      ensures forall k :: k != CredentialsKey && k in entries ==> entries[k] == old(entries)[k]
    {
      entries := entries[CredentialsKey := Some(c)];
    }

    /** A save followed by a read returns what was saved, and the last of two saves wins. */
    method SaveTwiceThenLoad(first: Credentials, second: Credentials) returns (loaded: Credentials)
      modifies this
      ensures loaded == second
      ensures entries == old(entries)[CredentialsKey := Some(second)]
    {
      SaveCredentials(first);
      SaveCredentials(second);
      loaded := GetCredentials(entries);
    }
  }

  /** Round trip over the abstract store: whatever was there before, reading after a save
      returns the saved record, and saving again replaces it. */
  lemma SaveThenGet(store: Store, c: Credentials, d: Credentials)
    ensures GetCredentials(store[CredentialsKey := Some(c)]) == c
    ensures store[CredentialsKey := Some(c)][CredentialsKey := Some(d)] == store[CredentialsKey := Some(d)]
  {
  }
}

=== FILE: text.dfy ===
/** String operations the extension relies on: `includes` and ASCII `toLowerCase`. */
module Text {

  /** t occurs in s starting at offset i. */
  predicate OccursAt(s: string, t: string, i: int)
  {
    0 <= i <= |s| - |t| && s[i..i + |t|] == t
  }

  /** `s.includes(t)`: t occurs in s at some offset; the empty string occurs everywhere. */
  predicate Contains(s: string, t: string): (b: bool)
    ensures b ==> |t| <= |s|
    ensures t == [] ==> b
    ensures |t| == |s| ==> (b <==> s == t)
  {
    assert t == [] ==> OccursAt(s, t, 0);
    assert s == t ==> OccursAt(s, t, 0);
    exists i | 0 <= i <= |s| - |t| :: OccursAt(s, t, i)
  }

  /** ASCII lower-casing of one character. */
  function LowerChar(c: char): (r: char)
    ensures 'A' <= c <= 'Z' ==> r as int == c as int + 32
    ensures !('A' <= c <= 'Z') ==> r == c
    ensures !('A' <= r <= 'Z')
  {
    if 'A' <= c <= 'Z' then (c as int + 32) as char else c
  }

  /** `s.toLowerCase()`, restricted to ASCII letters. */
  function Lower(s: string): (r: string)
    ensures |r| == |s|
    ensures forall i :: 0 <= i < |s| ==> r[i] == LowerChar(s[i])
  {
    seq(|s|, i requires 0 <= i < |s| => LowerChar(s[i]))
  }

  /** Occurrence is transitive: a string inside a string inside s is inside s. */
  lemma ContainsTransitive(s: string, t: string, u: string)
    requires Contains(s, t) && Contains(t, u)
    ensures Contains(s, u)
  {
    var i :| 0 <= i <= |s| - |t| && OccursAt(s, t, i);
    var j :| 0 <= j <= |t| - |u| && OccursAt(t, u, j);
    assert s[i..i + |t|] == t;
    forall k | 0 <= k < |u|
      ensures s[i + j + k] == u[k]
    {
      assert s[i + j + k] == s[i..i + |t|][j + k];
    }
    assert s[i + j..i + j + |u|] == u;
    assert OccursAt(s, u, i + j);
  }

  /** t cannot occur in s where t's first character never stands in s early enough. */
  lemma AbsentFirstCharacter(s: string, t: string)
    requires |t| > 0 && forall i :: 0 <= i <= |s| - |t| ==> s[i] != t[0]
    ensures !Contains(s, t)
  {
    forall i | 0 <= i <= |s| - |t| ensures !OccursAt(s, t, i) {
      assert s[i..i + |t|][0] == s[i];
    }
  }
}
